=== FILE: README.md ===
# File-system server core, in Dafny

This project models the core of `file_server.py`, a small tool server that lets a
client manage files through symbolic locations such as `desktop/notes`. The core has
four parts:

- the location registry built by `get_system_paths` and filtered by
  `get_available_locations`;
- `resolve_path`, which turns a tool argument into a real path string;
- the filesystem effects of `create_folder`, `delete_file` and `list_files`;
- `organize_files_by_extension`, which moves each regular file of a directory into a
  sub-directory named after its extension.

The modules follow that structure:

- `Text` holds the string primitives: `str.split`, `str.replace`, ASCII `str.lower`
  and `str.rfind`.
- `PosixPath` holds `isabs`, `join`, `normpath`, `abspath` and `splitext` from Python's
  `posixpath`. The current directory is a parameter.
- `Registry` holds `get_system_paths` and `get_available_locations`. The home
  directory, the platform test and the existence test are parameters.
- `Resolver` holds `resolve_path`.
- `FileSystem` is an abstract tree: a map from component paths to `File` or `Dir`,
  where every entry's parent is a directory. It models `os.makedirs(exist_ok=True)`,
  `rmtree`/`os.remove` and the `list_files` output.
- `Organize` holds `os.rename`, `shutil.move` for a file, and the organize loop.
- `Tools` joins them: each tool resolves its argument, normalises the resulting string
  into components, and takes one filesystem step.
- `Outcomes` holds the success/failure result that stands for "returned normally"
  versus "raised, and the tool reported an error".

Paths follow POSIX rules throughout. The Windows flag only decides whether the OneDrive
entries are added to the registry.

## Model

| member | source | states |
|---|---|---|
| Registry.SystemPaths | file_server.py:12-35 | The registry holds exactly the seven standard names, plus `onedrive` precisely when the host is Windows and `<home>/OneDrive` exists. |
| Registry.OneDriveAddsOnlyItsName | file_server.py:26-33 | The OneDrive rule adds the single name `onedrive` to the standard ones. |
| Registry.OneDriveKeepsOthers | file_server.py:15-33 | Under the OneDrive rule, `home`, `downloads`, `music` and `videos` keep their home-relative directory. |
| Registry.OneDriveRebindsSynced | file_server.py:28-33 | Under the OneDrive rule, `desktop`, `documents` and `pictures` move to a different directory, which lies inside the OneDrive folder, because the update overrides the standard entries. |
| Registry.SystemPathsNamesCanonical | file_server.py:15-33 | Every registered name is non-empty, lower-case and free of both separators, so a lower-cased first segment can match it. |
| Registry.SystemPathsUnderHome | file_server.py:14-33 | Every registered directory begins with the home string, and is absolute when home is. |
| Registry.AvailableLocations | file_server.py:204-211 | The result is the sub-map of the registry whose directories exist: the same directory for each kept name, and a name kept exactly when its directory exists. |
| Registry.AvailableIdempotent | file_server.py:207-211 | Filtering the available locations again changes nothing. |
| Registry.AvailableMonotone | file_server.py:207-211 | When more directories exist, no location disappears from the result. |
| Text.Split | file_server.py:49 | `str.split` returns at least one piece, and no piece contains the separator. |
| Text.SplitConcat | file_server.py:49 | Splitting `x + sep + y` gives the pieces of `x` followed by the pieces of `y`. |
| Text.JoinSplit | file_server.py:49 | Joining the pieces with the separator gives back the original string. |
| Text.SplitJoin | file_server.py:49 | Splitting a join of separator-free pieces gives back the pieces. |
| Text.ReplaceBackslash | file_server.py:49 | `replace("\\", "/")` keeps the length and leaves no backslash. |
| Text.ReplaceBackslashIsSplitJoin | file_server.py:49 | Replacing every `\` by `/` equals splitting at `\` and joining with `/`, so every other character is kept in place. |
| Text.Lower | file_server.py:50 | ASCII lower-casing gives a string of the same length that differs from the input only in the case of letters and has no capital left. |
| Text.LowerFoldsCase | file_server.py:50 | Two strings lower-case to the same string exactly when they differ only in the case of ASCII letters. |
| Text.LowerDesktop | file_server.py:50 | `Desktop` and `desktop` differ only in case, and both lower-case to `desktop`. |
| Text.LowerIsLower | file_server.py:50 | The ASCII lower-casing is idempotent. |
| Text.LastIndex | file_server.py:165 | `rfind` returns an occurrence of the character, or -1, with no occurrence after it. |
| PosixPath.IsAbs | file_server.py:45 | `isabs` holds exactly for a string that begins with `/`; `PosixPath.Join2` and `Resolver.Resolve` state its use. |
| PosixPath.JoinAll | file_server.py:52 | `join(base, *parts)` folds the two-argument join over the parts; `PosixPath.JoinAllReset`, `PosixPath.JoinAllKeepsBase` and `PosixPath.JoinEmptyComponents` state its behaviour. |
| PosixPath.Join2 | file_server.py:52 | `join(a, b)` is `b` when `b` is absolute; otherwise it extends `a`. |
| PosixPath.JoinAllReset | file_server.py:52 | In a many-argument `join`, an absolute component discards everything before it. |
| PosixPath.JoinAllKeepsBase | file_server.py:52 | A `join` with no absolute component starts with its base. |
| PosixPath.JoinEmptyComponents | file_server.py:52 | Empty components add a separator: `join(a, "")` is `a/`, and `join(a, "", b)` is `a/b` because the slash already present is not doubled. |
| PosixPath.NormPath | file_server.py:55 | `normpath` never returns the empty string, and keeps an absolute path absolute. |
| PosixPath.AbsPath | file_server.py:55 | `abspath` is absolute whenever the current directory is. |
| PosixPath.NormPathDot | file_server.py:55 | `normpath(".")` is `"."`. |
| PosixPath.NormPathIdempotent | file_server.py:55 | `normpath` is idempotent. |
| PosixPath.NormPathTrailingSlash | file_server.py:55 | `normpath` drops a trailing slash from an absolute path. |
| PosixPath.NormPathOfCollapsed | file_server.py:55 | A path already in normal form (one or two leading slashes, no empty, `.` or stray `..` components) is its own `normpath`. |
| PosixPath.SplitExt | file_server.py:165 | `splitext` splits the name into stem and extension that concatenate back to it; the extension is empty or a dot followed by neither dot nor slash. |
| PosixPath.SplitExtAddExtension | file_server.py:165 | `splitext(r + "." + e)` returns `(r, "." + e)` exactly when `r`'s last component has a character other than a dot. |
| PosixPath.SplitExtLeadingDots | file_server.py:165 | Leading dots do not start an extension: `..name` has none. |
| PosixPath.SplitExtHidden | file_server.py:165 | `.bashrc` and `..a` have no extension. |
| PosixPath.SplitExtLoneDot | file_server.py:165 | `a.` splits into `a` and `.`. |
| PosixPath.SplitExtLastDot | file_server.py:165 | Only the last dot counts: `archive.tar.gz` has extension `.gz`. |
| Resolver.Segments | file_server.py:49 | The segments of a path contain neither separator. |
| Resolver.Key | file_server.py:50 | The registry key is the lower-cased first segment; `Resolver.KeyCaseInsensitive` states which arguments share a key. |
| Resolver.KeyCaseInsensitive | file_server.py:49-50 | Two arguments share a registry key exactly when their first segments differ only in the case of letters. |
| Resolver.Resolve | file_server.py:39-55 | An absolute argument is returned unchanged. |
| Resolver.ResolveIsAbsolute | file_server.py:39-55 | With an absolute current directory and absolute registered directories, every resolved path is absolute. |
| Resolver.BackslashInterchangeableOnHit | file_server.py:49-52 | When the first segment is a registered name, writing `\` instead of `/` resolves to the same path. |
| Resolver.BackslashDiffersOnMiss | file_server.py:49-55 | For two plain names `x` and `y` where `x` is not registered, `x\y` resolves to the single entry `cwd/x\y` and `x/y` resolves to `cwd/x/y`, so the two spellings differ. `abspath` receives the original string, and `\` is an ordinary character under POSIX. |
| Resolver.FirstSegmentCaseInsensitive | file_server.py:50-52 | Two arguments whose first segments differ only in the case of letters and name a registered entry, and whose later segments agree, resolve alike. |
| Resolver.LaterSegmentsCaseSensitive | file_server.py:52 | Different later segments under a registered name resolve to different paths. |
| Resolver.BareNameResolvesToTarget | file_server.py:50-52 | A bare registered name, in any case, resolves to its directory, unnormalised. |
| Resolver.NamedChildResolves | file_server.py:50-52 | `name/child` resolves to `join(directory, child)`, which is `directory/child` when the directory has no trailing slash. |
| Resolver.EmptyResolvesToCwd | file_server.py:55 | The empty argument resolves to the current directory. |
| Resolver.MissResolvesUnderCwd | file_server.py:55 | A normalised relative path whose first segment is not registered resolves to `cwd/path`. |
| FileSystem.AncestorsAreDirs | file_server.py:62 | In a well-formed tree, every proper prefix of an entry is a directory. |
| FileSystem.FileHasNoDescendants | file_server.py:143 | Nothing lies below a file. |
| FileSystem.MakeDirs | file_server.py:62 | `makedirs(exist_ok=True)` on a path of components succeeds exactly when no file lies on the path. On success the path is a directory, every existing entry is kept, and the only new entries are directories on the path. A failure changes nothing: every directory above a file already exists (`FileSystem.AncestorsAreDirs`), so `makedirs` fails before creating anything. |
| FileSystem.MakeDirsIdempotent | file_server.py:62 | Repeating a successful `makedirs` changes nothing. |
| FileSystem.MakeDirsExisting | file_server.py:62 | `makedirs` on an existing directory is a no-op success. |
| FileSystem.MakeDirsChild | file_server.py:62 | When the parent is a directory and the path is new, `makedirs` adds exactly that directory. |
| FileSystem.Delete | file_server.py:139-146 | Deleting succeeds exactly when the entry exists and is not the root. It removes the entry and everything below it, and keeps everything else. |
| FileSystem.DeleteTwiceFails | file_server.py:139-146 | A second delete of the same path fails. |
| FileSystem.DeleteUndoesMakeDirs | file_server.py:139-146 | Deleting a directory that `makedirs` just created under an existing parent restores the tree. |
| FileSystem.Children | file_server.py:75 | The names `os.listdir` reports; `FileSystem.ChildMember` states that a name is a child exactly when its extended path is an entry. |
| FileSystem.ChildMember | file_server.py:75 | A name is listed as a child exactly when the parent's path extended by it is an entry. |
| FileSystem.EntryLineInjective | file_server.py:80 | Two entry lines that are equal name the same item. |
| FileSystem.EntryLine | file_server.py:80 | One output line per entry; `FileSystem.EntryLineTag` and `FileSystem.EntryLineInjective` state its shape. |
| FileSystem.EntryLineTag | file_server.py:79-80 | An entry line is the name followed by ` (folder)` for a directory and ` (file)` otherwise. |
| FileSystem.ListDir | file_server.py:73-83 | Listing succeeds exactly on a directory. It gives the `Contents of <path>:` header, then one distinct line per child, with each child's line present. |
| FileSystem.MadeFolderIsListed | file_server.py:62-80 | After `makedirs`, the new folder appears in its parent's listing as `<name> (folder)`. |
| Organize.Extension | file_server.py:165-168 | The sub-directory name is the `splitext` extension without its dot; `Organize.ExtensionShape` and `Organize.ExtensionOfNamed` state its shape. |
| Organize.ExtensionShape | file_server.py:165-168 | The extension with its dot removed contains no dot and no slash, and a moving name is its stem, a dot, and that extension. |
| Organize.ExtensionOfNamed | file_server.py:165-168 | `stem.e` has extension `e` when the stem is a proper name. |
| Organize.Rename | file_server.py:176 | `os.rename` of a file succeeds exactly when the source and destination are equal, or when the destination's parent is a directory and the destination is not a directory. It replaces a file at the destination and keeps everything else. |
| Organize.MoveFile | file_server.py:176 | `shutil.move` of a file into an existing directory succeeds exactly when no entry of that name is already there. Otherwise it behaves like `os.rename`. |
| Organize.Step | file_server.py:164-176 | One iteration keeps the tree well formed. Every entry other than the file itself keeps its kind. A name without an extension changes nothing and succeeds. |
| Organize.FilesOf | file_server.py:161 | The files to process are exactly the listed names that are regular files, without repeats. |
| Organize.FilesOfAppend | file_server.py:161 | The filter keeps listing order: filtering a concatenation gives the filtered parts in turn. |
| Organize.Run | file_server.py:163-180 | The loop over the listed files, which stops at the first failing iteration, always leaves a well-formed tree; `Organize.RunRelocates` and `Organize.RunStopsOnClash` state its outcome. |
| Organize.Organize | file_server.py:159-180 | On a path that is not a directory, the tool fails and changes nothing. It always leaves the tree well formed. |
| Organize.MovingOf | file_server.py:163-168 | The plan holds exactly the names that have an extension, each mapped to that extension. |
| Organize.Movable | file_server.py:161-168 | The plan for a directory covers exactly its regular files that have an extension. |
| Organize.ExtensionPlanApart | file_server.py:165-170 | A name that moves has a dot, and its extension directory has none, so files and extension directories never share a name. |
| Organize.RelocatedUnique | file_server.py:163-176 | The relocation of a directory by a plan determines the resulting tree. |
| Organize.RelocatedCompose | file_server.py:163-176 | Relocating by two disjoint plans in turn is relocating by their union. |
| Organize.StepRelocates | file_server.py:164-176 | When nothing is in the way, one iteration succeeds and moves the file into its extension directory. |
| Organize.StepMoves | file_server.py:169-176 | When nothing is in the way, one iteration creates `d/ext` if it is missing and moves `d/f` to `d/ext/f`. |
| Organize.RunRelocates | file_server.py:163-176 | When nothing is in the way, the loop succeeds and the result is the relocation by the plan of the processed names. |
| Organize.OrganizeRelocates | file_server.py:159-178 | When nothing is in the way, organizing succeeds. Every regular file with an extension ends up in its extension directory and leaves the top level. Every other path stays with its kind, and nothing else appears. |
| Organize.StepOverwrites | file_server.py:169-176 | A regular file already at `ext/name` is replaced by the move: the step succeeds and the tree has one entry fewer. |
| Organize.OrganizeOrderIrrelevant | file_server.py:161-176 | When nothing is in the way, the order of the directory listing does not affect the result. |
| Organize.RunStopsOnClash | file_server.py:171-180 | When a file bears the name of a processed file's extension directory, the loop fails. |
| Organize.OrganizeStopsOnClash | file_server.py:159-180 | A regular file named like another file's extension makes the tool report an error. |
| Organize.OrganizeExample | file_server.py:154-180 | Organizing a directory holding `a.txt`, `b.txt` and `c` creates `txt` with both text files inside, leaves `c` alone and succeeds, whatever order the listing gives. |
| Tools.Locate | file_server.py:61-62 | The entry a resolved path names has no separators in its components and is in normal form. |
| Tools.LocateJoin2 | file_server.py:52 | `join(a, child)` names the child of what `a` names. |
| Tools.Anchored | file_server.py:52 | The kernel reads a relative resolved string from the current directory and an absolute one as given. |
| Tools.AnchoredJoin2 | file_server.py:52 | Joining a relative name and reading the result from the current directory commute. |
| Tools.RelativeTargetFromCwd | file_server.py:50-52 | A registered directory given as a relative string, such as an unexpanded `~`, names an entry below the current directory. |
| Tools.ChildOfShortcut | file_server.py:50-52 | `name/child` for a registered name refers to the child of the named directory. |
| Tools.CreateFolder | file_server.py:58-65 | On the lexically normalised resolved path, `create_folder` succeeds exactly when no file lies on it, and then the path is a directory. |
| Tools.DeleteFile | file_server.py:133-146 | `delete_file` fails when the resolved string ends in `.` or `..`. Otherwise, on the lexically normalised resolved path, it succeeds exactly when the entry exists and is not the root, and then the entry is gone. |
| Tools.DeleteDotFails | file_server.py:133-146 | `delete_file("name/.")` for a registered name reports an error, though it names an existing directory. |
| Tools.ListFiles | file_server.py:68-83 | On the lexically normalised resolved path, `list_files` succeeds exactly on a directory. The header shows the resolved path, followed by one distinct line per entry. |
| Tools.OrganizeByExtension | file_server.py:154-180 | `organize_files_by_extension` on a resolved non-directory fails without effect. |
| Tools.AvailableShortcuts | file_server.py:204-211 | `get_available_locations` reports exactly the registered names whose directory exists, with that directory. |
| Tools.ShortcutsExist | file_server.py:204-211 | Every reported location resolves, as a bare name, to the reported directory, and that directory exists. |
| Tools.SystemShortcutsExist | file_server.py:204-211 | The same holds for the registry `get_system_paths` builds, for every home directory, platform and current directory. |
| Tools.CreatedFolderIsListed | file_server.py:58-83 | A folder made by `create_folder("name/child")` shows up in `list_files("name")` as `child (folder)`. |
| Tools.DeleteUndoesCreate | file_server.py:133-146 | `delete_file` on the argument just given to `create_folder` undoes it, when the lexically normalised folder was new, its parent existed, and the resolved string does not end in `.` or `..`. |
| Tools.CreateFolderCaseInsensitive | file_server.py:49-62 | `n/x` and `m/x` create the same folder when `n` and `m` differ only in the case of letters and name a registered entry. |
| Tools.CreateFolderDesktop | file_server.py:49-62 | With `desktop` registered, `Desktop/x` and `desktop/x` create the same folder. |

## Left out

- `locate_file` (lines 85-99): it is a recursive glob. Pattern matching over a tree is a
  separate subsystem from the path handling modelled here.
- `move_file` and `copy_file` (lines 101-130) are not modelled as tools. `shutil.move` is
  modelled only for a regular-file source, the one case `organize_files_by_extension`
  uses.
- `file_info` (lines 182-202): it only reads `stat` fields, timestamps and sizes, which
  the abstract tree does not carry.
- `get_current_directory` (lines 148-151): the current directory is a parameter of the
  model.
- The server transport and the start-up printing (lines 1-9 and 213-226) are left out.
- The host's home directory, platform name and the OneDrive existence test are
  parameters of `Registry.SystemPaths`, not read from the host.
- Windows path rules (`ntpath`: drive letters, `\` as separator) are not modelled.
  Paths follow POSIX rules, and the Windows flag only selects the OneDrive entries.
- Text.Lower: only ASCII letters are lower-cased. Python's `str.lower` also folds
  non-ASCII letters.
- Tools.Locate: a path string is turned into tree components lexically, as `normpath`
  would. The kernel walks the string one component at a time instead: a `..` needs the
  component before it to be an existing directory, and a trailing slash needs a
  directory. On a registry hit the string built by `join` (line 52) is not normalised,
  and an absolute argument is returned as given (lines 45-46), so the two differ there:
  for example on `desktop/x.txt/` or `/d/x.txt/` naming a regular file, and on
  `desktop/missing/..`. Symbolic links are not modelled either.
- Tools.Anchored: the host's current directory is taken to be absolute, as `os.getcwd`
  reports it. A relative one would be read from the root.
- Tools.CreateFolder: for a resolved path with `..` after a missing component, the real
  `makedirs` also creates that component (`desktop/new/../x` creates `Desktop/new` too).
  After a file component (`desktop/f.txt/../x`) it fails with "not a directory". The
  model makes only the lexically normalised path and succeeds.
- Tools.DeleteFile: for `desktop/x.txt/` or `/d/x.txt/` on a regular file the real
  `os.remove` fails with "not a directory". The model deletes the file. For a resolved
  string ending in `.` or `..` on a directory (`desktop/.`, `/d/.`, `desktop/x/..`), the
  real `rmtree` first removes everything inside the directory, and then its final `rmdir`
  fails. The model reports the error, but `Err` carries no tree, so the emptied directory
  is not modelled.
- Tools.ListFiles: for `desktop/missing/..` the real `os.listdir` fails. The model lists
  `Desktop`.
- Tools.DeleteUndoesCreate: for `desktop/missing/../new` the real `create_folder` also
  makes `Desktop/missing`, which `delete_file` leaves behind. The restored tree holds only
  for arguments whose resolved path has no such `..`.
- FileSystem.Delete: `rmtree` is modelled as all-or-nothing. A removal that fails halfway
  (permissions, concurrent changes) is not modelled. In particular, a path naming the root
  gives `Err` with nothing removed, while the real `rmtree("/")` removes what it can
  below the root before its final `rmdir` fails.
- Permissions, disk-full and other operating-system errors are not modelled. An
  operation fails only for the structural reasons stated in its contract.
- The exact text of error and success messages is not modelled; `Err` stands for
  "the tool returned its error string".
- Organize.MoveFile: only a regular-file source is covered. Moving a directory is not
  modelled.
- Organize.OrganizeRelocates: the success result is proved only when nothing is in the
  way for any file: no file is named like an extension directory, and no directory
  `ext/name` exists already. The clash with a file is characterised separately by
  `Organize.OrganizeStopsOnClash`. The clash with an existing `ext/name` directory is
  only known to leave the tree well formed. A regular file already at `ext/name` does not
  stop the run: `os.rename` replaces it, and its contents are lost. The tree records only
  kinds, so "every other path stays" holds for that path while the file there is a
  different one; `Organize.StepOverwrites` states the lost entry.
- The order in which `os.listdir` returns names is a parameter (`listing`) of
  `Organize.Organize`. `Organize.OrganizeOrderIrrelevant` shows that the order does not
  matter when nothing is in the way.
- Tools.OrganizeByExtension: on a directory, its contract states only that the tree stays
  well formed. The full outcome is stated by `Organize.OrganizeRelocates` and
  `Organize.OrganizeStopsOnClash` on the resolved directory.
- Resolver.Resolve: its contract states only the absolute-path branch. The registry and
  current-directory branches are stated by the lemmas that follow it in the table.

=== FILE: filesystem.dfy ===
/** An abstract POSIX filesystem: a finite map from paths, given as sequences of names
    below the root, to the kind of node found there. The operations are the filesystem
    steps behind `create_folder` (`os.makedirs` with `exist_ok=True`), `delete_file`
    (`shutil.rmtree` or `os.remove`) and `list_files` (`os.listdir` plus a kind tag per
    entry). */
module FileSystem {
  import opened Outcomes

  datatype Node = File | Dir

  type Path = seq<string>

  type FS = map<Path, Node>

  function Parent(p: Path): Path
    requires p != []
  {
    p[..|p| - 1]
  }

  function Last(p: Path): string
    requires p != []
  {
    p[|p| - 1]
  }

  predicate IsDir(fs: FS, p: Path)
  {
    p in fs && fs[p] == Dir
  }

  predicate IsFile(fs: FS, p: Path)
  {
    p in fs && fs[p] == File
  }

  /** `p` is the root or sits directly inside a directory. */
  predicate Placed(fs: FS, p: Path)
  {
    p == [] || IsDir(fs, Parent(p))
  }

  /** A tree: the root is a directory and every other entry sits inside a directory. */
  predicate WellFormed(fs: FS)
  {
    IsDir(fs, []) && forall p {:trigger Placed(fs, p)} :: p in fs ==> Placed(fs, p)
  }

  /** Every proper ancestor of an entry is a directory. */
  lemma {:induction false} AncestorsAreDirs(fs: FS, p: Path)
    requires WellFormed(fs) && p in fs
    ensures forall i :: 0 <= i < |p| ==> IsDir(fs, p[..i])
    decreases |p|
  {
    if p != [] {
      var q := Parent(p);
      assert Placed(fs, p);
      AncestorsAreDirs(fs, q);
      forall i | 0 <= i < |p|
        ensures IsDir(fs, p[..i])
      {
        if i < |q| {
          assert q[..i] == p[..i];
        } else {
          assert p[..i] == q;
        }
      }
    }
  }

  /** Nothing lies below a file. */
  lemma FileHasNoDescendants(fs: FS, p: Path, q: Path)
    requires WellFormed(fs) && IsFile(fs, p)
    requires p <= q && q in fs
    ensures q == p
  {
    if q != p {
      ProperPrefixIsDir(fs, p, q);
    }
  }

  /** A proper prefix of an entry is a directory. */
  lemma ProperPrefixIsDir(fs: FS, p: Path, q: Path)
    requires WellFormed(fs) && q in fs
    requires p <= q && p != q
    ensures IsDir(fs, p)
  {
    AncestorsAreDirs(fs, q);
    assert q[..|p|] == p;
  }

  /** No prefix of `p`, from the root to `p` itself, is a file. */
  predicate NoFileOnPath(fs: FS, p: Path)
  {
    forall i :: 0 <= i <= |p| ==> !IsFile(fs, p[..i])
  }

  /** `os.makedirs(p, exist_ok=True)`: create the missing parent first (only when it does
      not exist), then `mkdir` the path itself; a path that already exists is accepted
      only when it is a directory, and `mkdir` below a file fails. */
  function MakeDirs(fs: FS, p: Path): (r: Outcome<FS>)
    requires WellFormed(fs)
    ensures r.Ok? <==> NoFileOnPath(fs, p)
    ensures r.Ok? ==> WellFormed(r.value) && IsDir(r.value, p)
    ensures r.Ok? ==> forall q :: q in fs ==> q in r.value && r.value[q] == fs[q]
    ensures r.Ok? ==> forall q :: q in r.value && q !in fs ==> q <= p && r.value[q] == Dir
    decreases |p|
  {
    if p == [] then
      Ok(fs)
    else
      var head := Parent(p);
      var made := if head !in fs then MakeDirs(fs, head) else Ok(fs);
      match made
      case Err =>
        FileAboveParent(fs, p);
        Err
      case Ok(fs1) =>
        MakeDirsStep(fs, p, fs1);
        if p in fs1 then
          if fs1[p] == Dir then Ok(fs1) else Err
        else if IsDir(fs1, head) then
          Ok(fs1[p := Dir])
        else
          Err
  }

  /** A file above the parent is a file above the path. */
  lemma FileAboveParent(fs: FS, p: Path)
    requires p != [] && !NoFileOnPath(fs, Parent(p))
    ensures !NoFileOnPath(fs, p)
  {
    var i :| 0 <= i <= |Parent(p)| && IsFile(fs, Parent(p)[..i]);
    assert Parent(p)[..i] == p[..i];
  }

  /** The facts `MakeDirs` needs about the state after its parent step. */
  lemma MakeDirsStep(fs: FS, p: Path, fs1: FS)
    requires WellFormed(fs) && p != []
    requires Parent(p) in fs ==> fs1 == fs
    requires Parent(p) !in fs ==> NoFileOnPath(fs, Parent(p)) && WellFormed(fs1) && IsDir(fs1, Parent(p))
    requires forall q :: q in fs ==> q in fs1 && fs1[q] == fs[q]
    requires forall q :: q in fs1 && q !in fs ==> q <= Parent(p) && fs1[q] == Dir
    ensures WellFormed(fs1)
    ensures p in fs1 <==> p in fs
    ensures p in fs1 ==> (fs1[p] == Dir <==> NoFileOnPath(fs, p))
    ensures p !in fs1 ==> (IsDir(fs1, Parent(p)) <==> NoFileOnPath(fs, p))
    ensures p !in fs1 && IsDir(fs1, Parent(p)) ==> WellFormed(fs1[p := Dir])
  {
    var head := Parent(p);
    assert p[..|p|] == p;
    assert p[..|p| - 1] == head;
    if p in fs {
      if fs[p] == Dir {
        AncestorsAreDirs(fs, p);
      }
    } else if head in fs {
      if IsDir(fs, head) {
        AncestorsAreDirs(fs, head);
        PrefixesOfChild(fs, p);
      }
    } else {
      PrefixesOfChild(fs, p);
    }
    if p !in fs1 && IsDir(fs1, head) {
      var fs2 := fs1[p := Dir];
      forall q | q in fs2
        ensures Placed(fs2, q)
      {
        if q != p {
          assert Placed(fs1, q);
        }
      }
    }
  }

  /** With the parent's prefixes free of files, only `p` itself remains to check. */
  lemma PrefixesOfChild(fs: FS, p: Path)
    requires p != [] && p !in fs
    requires NoFileOnPath(fs, Parent(p)) || ((forall i :: 0 <= i < |Parent(p)| ==> IsDir(fs, Parent(p)[..i])) && IsDir(fs, Parent(p)))
    ensures NoFileOnPath(fs, p)
  {
    var head := Parent(p);
    forall i | 0 <= i <= |p|
      ensures !IsFile(fs, p[..i])
    {
      if i < |p| {
        assert p[..i] == head[..i];
      } else {
        assert p[..i] == p;
      }
    }
  }

  /** `create_folder` is idempotent: a second `makedirs` of the same path succeeds and
      changes nothing. */
  lemma MakeDirsIdempotent(fs: FS, p: Path)
    requires WellFormed(fs)
    requires MakeDirs(fs, p).Ok?
    ensures MakeDirs(MakeDirs(fs, p).value, p) == MakeDirs(fs, p)
  {
    var fs1 := MakeDirs(fs, p).value;
    AncestorsAreDirs(fs1, p);
    if p != [] {
      assert Parent(p) in fs1;
    }
  }

  /** `makedirs` of an existing directory changes nothing. */
  lemma MakeDirsExisting(fs: FS, p: Path)
    requires WellFormed(fs) && IsDir(fs, p)
    ensures MakeDirs(fs, p) == Ok(fs)
  {
    AncestorsAreDirs(fs, p);
    assert p[..|p|] == p;
    assert MakeDirs(fs, p).value == fs;
  }

  /** `makedirs` of a missing entry inside an existing directory adds exactly that entry. */
  lemma MakeDirsChild(fs: FS, p: Path)
    requires WellFormed(fs) && p != [] && IsDir(fs, Parent(p)) && p !in fs
    ensures MakeDirs(fs, p) == Ok(fs[p := Dir])
  {
    AncestorsAreDirs(fs, Parent(p));
    PrefixesOfChild(fs, p);
    assert MakeDirs(fs, p).value == fs[p := Dir];
  }

  /** The filesystem step of `delete_file`: `shutil.rmtree` when the path is a directory,
      `os.remove` otherwise. A missing path fails, and so does removing the root. */
  function Delete(fs: FS, p: Path): (r: Outcome<FS>)
    requires WellFormed(fs)
    ensures r.Ok? <==> p in fs && p != []
    ensures r.Ok? ==> WellFormed(r.value)
    ensures r.Ok? ==> forall q :: q in r.value <==> q in fs && !(p <= q)
    ensures r.Ok? ==> forall q :: q in r.value ==> r.value[q] == fs[q]
  {
    if IsDir(fs, p) then
      if p == [] then Err
      else
        var rest := map q | q in fs && !(p <= q) :: fs[q];
        assert WellFormed(rest) by {
          forall q | q in rest
            ensures Placed(rest, q)
          {
            assert Placed(fs, q);
          }
        }
        Ok(rest)
    else if IsFile(fs, p) then
      assert forall q :: q in fs && p <= q ==> q == p by {
        forall q | q in fs && p <= q
          ensures q == p
        {
          FileHasNoDescendants(fs, p, q);
        }
      }
      assert WellFormed(fs - {p}) by {
        forall q | q in fs - {p}
          ensures Placed(fs - {p}, q)
        {
          assert Placed(fs, q);
        }
      }
      Ok(fs - {p})
    else
      Err
  }

  /** `delete_file` is idempotent in effect: once a path is gone, deleting it again fails. */
  lemma DeleteTwiceFails(fs: FS, p: Path)
    requires WellFormed(fs)
    requires Delete(fs, p).Ok?
    ensures Delete(Delete(fs, p).value, p).Err?
  {
    assert p <= p;
  }

  /** Deleting a folder that `create_folder` has just made inside an existing directory
      gives back the filesystem as it was. */
  lemma DeleteUndoesMakeDirs(fs: FS, p: Path)
    requires WellFormed(fs)
    requires p != [] && p !in fs && IsDir(fs, Parent(p))
    ensures MakeDirs(fs, p).Ok?
    ensures Delete(MakeDirs(fs, p).value, p) == Ok(fs)
  {
    AncestorsAreDirs(fs, Parent(p));
    assert NoFileOnPath(fs, p) by {
      forall i | 0 <= i <= |p|
        ensures !IsFile(fs, p[..i])
      {
        if i < |p| - 1 {
          assert p[..i] == Parent(p)[..i];
        } else if i == |p| - 1 {
          assert p[..i] == Parent(p);
        } else {
          assert p[..i] == p;
        }
      }
    }
    var fs1 := MakeDirs(fs, p).value;
    assert fs1 == fs[p := Dir];
    var r := Delete(fs1, p).value;
    forall q | q in fs
      ensures !(p <= q)
    {
      if p <= q {
        FileOrDirBelowMissing(fs, p, q);
      }
    }
    assert r == fs;
  }

  /** An entry cannot lie below a missing path. */
  lemma FileOrDirBelowMissing(fs: FS, p: Path, q: Path)
    requires WellFormed(fs) && p !in fs && p <= q
    ensures q !in fs
  {
    if q in fs && q != p {
      ProperPrefixIsDir(fs, p, q);
    }
  }

  /** The names directly inside `p`, as `os.listdir` reports them (in no particular order). */
  function Children(fs: FS, p: Path): set<string>
  {
    set q | q in fs && |q| == |p| + 1 && q[..|p|] == p :: q[|p|]
  }

  lemma ChildMember(fs: FS, p: Path, c: string)
    ensures c in Children(fs, p) <==> p + [c] in fs
  {
    var q := p + [c];
    assert q[..|p|] == p && q[|p|] == c;
    if c in Children(fs, p) {
      var q' :| q' in fs && |q'| == |p| + 1 && q'[..|p|] == p && q'[|p|] == c;
      assert q' == q;
    }
  }

  /** The line `list_files` prints for one entry: its name and whether it is a folder. */
  function EntryLine(name: string, kind: Node): string
  {
    name + (if kind == Dir then " (folder)" else " (file)")
  }

  /** The entry line for child `c` of `p`, tagged `folder` exactly when it is a directory. */
  function Entry(fs: FS, p: Path, c: string): string
  {
    EntryLine(c, if IsDir(fs, p + [c]) then Dir else File)
  }

  /** Different names give different entry lines, whatever their kinds. */
  lemma EntryLineInjective(a: string, ka: Node, b: string, kb: Node)
    requires EntryLine(a, ka) == EntryLine(b, kb)
    ensures a == b
  {
    EntryLineTag(a, ka);
    EntryLineTag(b, kb);
    assert ka == kb;
    var s := EntryLine(a, ka);
    assert s[..|a|] == a;
    assert s[..|b|] == b;
  }

  /** A line is the name followed by ` (folder)` for a directory or ` (file)` otherwise;
      the two tags already differ in their second-to-last character. */
  lemma EntryLineTag(name: string, kind: Node)
    ensures EntryLine(name, kind)[..|name|] == name
    ensures EntryLine(name, kind)[|name|..] == if kind == Dir then " (folder)" else " (file)"
    ensures var s := EntryLine(name, kind);
            |s| >= 2 && s[|s| - 2] == (if kind == Dir then 'r' else 'e')
  {
  }

  predicate Distinct(s: seq<string>)
  {
    forall i, j :: 0 <= i < j < |s| ==> s[i] != s[j]
  }

  /** After the loop: every child's line was written. */
  lemma LinesCover(fs: FS, p: Path, listed: seq<string>, lines: seq<string>)
    requires |lines| == |listed| + 1
    requires forall c :: c in Children(fs, p) ==> c in listed
    requires forall k :: 0 <= k < |listed| ==> lines[k + 1] == Entry(fs, p, listed[k])
    ensures forall c :: c in Children(fs, p) ==> Entry(fs, p, c) in lines[1..]
  {
    forall c | c in Children(fs, p)
      ensures Entry(fs, p, c) in lines[1..]
    {
      var k :| 0 <= k < |listed| && listed[k] == c;
      assert lines[1..][k] == lines[k + 1];
    }
  }

  /** `line` is the entry line of some child of `p`. */
  predicate ChildLine(fs: FS, p: Path, line: string)
  {
    exists c :: c in Children(fs, p) && line == Entry(fs, p, c)
  }

  /** After the loop: every line after the header is some child's line. */
  lemma LinesAreEntries(fs: FS, p: Path, listed: seq<string>, lines: seq<string>)
    requires |lines| == |listed| + 1
    requires forall k :: 0 <= k < |listed| ==> listed[k] in Children(fs, p)
    requires forall k :: 0 <= k < |listed| ==> lines[k + 1] == Entry(fs, p, listed[k])
    ensures forall k :: 1 <= k < |lines| ==> ChildLine(fs, p, lines[k])
  {
    forall k | 1 <= k < |lines|
      ensures ChildLine(fs, p, lines[k])
    {
      var c := listed[k - 1];
      assert c in Children(fs, p) && lines[k] == Entry(fs, p, c);
    }
  }

  /** After the loop: no line after the header repeats, as the children are distinct. */
  lemma LinesDistinct(fs: FS, p: Path, listed: seq<string>, lines: seq<string>)
    requires |lines| == |listed| + 1 && Distinct(listed)
    requires forall k :: 0 <= k < |listed| ==> lines[k + 1] == Entry(fs, p, listed[k])
    ensures Distinct(lines[1..])
  {
    forall i, j | 0 <= i < j < |lines[1..]|
      ensures lines[1..][i] != lines[1..][j]
    {
      if lines[i + 1] == lines[j + 1] {
        EntryLineInjective(listed[i], if IsDir(fs, p + [listed[i]]) then Dir else File,
                           listed[j], if IsDir(fs, p + [listed[j]]) then Dir else File);
      }
    }
  }

  /** `list_files`' filesystem step: a header line naming the directory as `shown`, then
      one line per entry in the order `os.listdir` happens to return them. Each child gets
      exactly one line and every line belongs to a child. Fails unless `p` is a directory. */
  method ListDir(fs: FS, shown: string, p: Path) returns (r: Outcome<seq<string>>)
    ensures r.Ok? <==> IsDir(fs, p)
    ensures r.Ok? ==> |r.value| == |Children(fs, p)| + 1
    ensures r.Ok? ==> r.value[0] == "Contents of " + shown + ":"
    ensures r.Ok? ==> forall c :: c in Children(fs, p) ==> Entry(fs, p, c) in r.value[1..]
    ensures r.Ok? ==> forall k :: 1 <= k < |r.value| ==> ChildLine(fs, p, r.value[k])
    ensures r.Ok? ==> Distinct(r.value[1..])
  {
    if !IsDir(fs, p) {
      return Err;
    }
    var lines := ["Contents of " + shown + ":"];
    var remaining := Children(fs, p);
    ghost var listed: seq<string> := [];
    while remaining != {}
      invariant remaining <= Children(fs, p)
      invariant |lines| == |listed| + 1
      invariant lines[0] == "Contents of " + shown + ":"
      invariant forall k :: 0 <= k < |listed| ==> listed[k] in Children(fs, p) && listed[k] !in remaining
      invariant forall c :: c in Children(fs, p) && c !in remaining ==> c in listed
      invariant forall k :: 0 <= k < |listed| ==> lines[k + 1] == Entry(fs, p, listed[k])
      invariant Distinct(listed)
      invariant |listed| + |remaining| == |Children(fs, p)|
      decreases remaining
    {
      var c :| c in remaining;
      lines := lines + [Entry(fs, p, c)];
      listed := listed + [c];
      remaining := remaining - {c};
    }
    LinesCover(fs, p, listed, lines);
    LinesAreEntries(fs, p, listed, lines);
    LinesDistinct(fs, p, listed, lines);
    r := Ok(lines);
  }

  /** After `create_folder` makes a new folder, its parent's listing shows it as a folder:
      the folder is a child of the parent and its entry line carries the `folder` tag. */
  lemma MadeFolderIsListed(fs: FS, p: Path)
    requires WellFormed(fs)
    requires p != [] && MakeDirs(fs, p).Ok?
    ensures Last(p) in Children(MakeDirs(fs, p).value, Parent(p))
    ensures Entry(MakeDirs(fs, p).value, Parent(p), Last(p)) == Last(p) + " (folder)"
  {
    var fs1 := MakeDirs(fs, p).value;
    assert Parent(p) + [Last(p)] == p;
    ChildMember(fs1, Parent(p), Last(p));
  }
}

=== FILE: organize.dfy ===
/** `organize_files_by_extension`: every regular file directly inside a directory moves
    into a sub-directory of that directory named after the file's extension. The list of
    files is taken once, before anything moves; each file then gets `os.makedirs` of its
    extension directory and `shutil.move` into it. The first failure ends the run, and
    the moves already made stay made. */
module Organize {
  import opened Outcomes
  import opened Text
  import opened PosixPath
  import opened FileSystem

  /** The directory name used for file `f`: the extension `splitext` finds, without its
      dot. Empty when `f` has no extension, and also for a name ending in a lone dot
      (`a.`), whose extension is the dot alone. */
  function Extension(f: string): (e: string)
  {
    var ext := SplitExt(f).1;
    if ext == "" then "" else ext[1..]
  }

  /** The directory name is free of dots and slashes, and for a moving file it is exactly
      what follows the last dot: `f` is its `splitext` root, a dot, and the name. */
  lemma ExtensionShape(f: string)
    ensures '.' !in Extension(f) && '/' !in Extension(f)
    ensures Moves(f) ==> f == SplitExt(f).0 + "." + Extension(f)
  {
  }

  /** True iff organizing moves `f` somewhere else. */
  predicate Moves(f: string)
  {
    Extension(f) != ""
  }

  /** A file that moves has a dot in its name, so it never shares a name with an
      extension directory. */
  lemma MovingNameHasDot(f: string)
    requires Moves(f)
    ensures '.' in f && f != Extension(f)
  {
    ExtensionShape(f);
    var stem := SplitExt(f).0;
    assert f[|stem|] == '.';
  }

  /** Appending an extension to a name that is not all dots makes that extension the
      file's directory. */
  lemma ExtensionOfNamed(stem: string, e: string)
    requires NamedStem(stem) && e != "" && '.' !in e && '/' !in e
    ensures Extension(stem + "." + e) == e
  {
    SplitExtAddExtension(stem, e);
  }

  /** `os.path.join(real_path, extension)` as a location: the directory itself when the
      extension is empty. */
  function ExtDir(d: Path, e: string): Path
  {
    if e == "" then d else d + [e]
  }

  /** `os.rename` of a file on POSIX: renaming onto itself does nothing, an existing file
      at the destination is replaced, and the destination's parent must be a directory
      while the destination itself must not be one. */
  function Rename(fs: FS, src: Path, dst: Path): (r: Outcome<FS>)
    requires WellFormed(fs) && IsFile(fs, src)
    ensures r.Ok? <==> src == dst || (dst != [] && IsDir(fs, Parent(dst)) && !IsDir(fs, dst))
    ensures r.Ok? ==> WellFormed(r.value) && IsFile(r.value, dst)
    ensures r.Ok? ==> forall q :: q in fs && q != src ==> q in r.value && r.value[q] == fs[q]
    ensures r.Ok? ==> forall q :: q in r.value ==> q in fs || q == dst
    ensures r.Ok? && src != dst ==> src !in r.value
  {
    if src == dst then
      Ok(fs)
    else if dst == [] || !IsDir(fs, Parent(dst)) || IsDir(fs, dst) then
      Err
    else
      var r := (fs - {src})[dst := File];
      assert WellFormed(r) by {
        forall q | q in r
          ensures Placed(r, q)
        {
          if q != dst {
            assert Placed(fs, q);
          }
        }
      }
      Ok(r)
  }

  /** Where `shutil.move` puts a file: inside `dst` when `dst` is a directory, else at `dst`. */
  function MoveTarget(fs: FS, src: Path, dst: Path): Path
    requires src != []
  {
    if IsDir(fs, dst) then dst + [Last(src)] else dst
  }

  /** `shutil.move` for a file source: into an existing directory under the file's own
      name, refusing when that name is taken there; otherwise an `os.rename`. */
  function MoveFile(fs: FS, src: Path, dst: Path): (r: Outcome<FS>)
    requires WellFormed(fs) && IsFile(fs, src)
    ensures r.Ok? <==> if IsDir(fs, dst) then dst + [Last(src)] !in fs
                       else src == dst || (dst != [] && IsDir(fs, Parent(dst)))
    ensures r.Ok? ==> WellFormed(r.value) && IsFile(r.value, MoveTarget(fs, src, dst))
    ensures r.Ok? ==> forall q :: q in fs && q != src ==> q in r.value && r.value[q] == fs[q]
    ensures r.Ok? ==> forall q :: q in r.value ==> q in fs || q == MoveTarget(fs, src, dst)
    ensures r.Ok? && src != MoveTarget(fs, src, dst) ==> src !in r.value
  {
    if IsDir(fs, dst) then
      var into := dst + [Last(src)];
      assert Parent(into) == dst;
      if into in fs then Err else Rename(fs, src, into)
    else
      Rename(fs, src, dst)
  }

  /** The filesystem after some steps, and whether every step so far succeeded. */
  datatype Progress = Progress(fs: FS, ok: bool)

  /** One iteration of the loop: a file without extension is skipped; otherwise its
      extension directory is made and the file is moved into it. A failing `makedirs`
      changes nothing; a failing move leaves the directory made. */
  function Step(fs: FS, d: Path, f: string): (r: Progress)
    requires WellFormed(fs) && IsFile(fs, d + [f])
    ensures WellFormed(r.fs)
    ensures forall q :: q in fs && q != d + [f] ==> q in r.fs && r.fs[q] == fs[q]
    ensures !Moves(f) ==> r == Progress(fs, true)
  {
    var ext := SplitExt(f).1;
    if ext == "" then
      Progress(fs, true)
    else
      var dir := ExtDir(d, ext[1..]);
      assert Parent(d + [f]) == d;
      assert Placed(fs, d + [f]);
      MakeDirsExisting(fs, d);
      match MakeDirs(fs, dir)
      case Err => Progress(fs, false)
      case Ok(fs1) =>
        match MoveFile(fs1, d + [f], dir + [f])
        case Err => Progress(fs1, false)
        case Ok(fs2) => Progress(fs2, true)
  }

  /** The loop over the files listed up front, stopping at the first failure. */
  function Run(fs: FS, d: Path, files: seq<string>): (r: Progress)
    requires WellFormed(fs) && Distinct(files)
    requires forall f :: f in files ==> IsFile(fs, d + [f])
    ensures WellFormed(r.fs)
    decreases |files|
  {
    if files == [] then
      Progress(fs, true)
    else
      var s := Step(fs, d, files[0]);
      if !s.ok then
        s
      else
        OthersStayFiles(fs, s.fs, d, files);
        Run(s.fs, d, files[1..])
  }

  /** The files still to come are untouched by a step on the first one. */
  lemma OthersStayFiles(fs: FS, r: FS, d: Path, files: seq<string>)
    requires files != [] && Distinct(files)
    requires forall f :: f in files ==> IsFile(fs, d + [f])
    requires forall q :: q in fs && q != d + [files[0]] ==> q in r && r[q] == fs[q]
    ensures Distinct(files[1..])
    ensures forall g :: g in files[1..] ==> IsFile(r, d + [g])
  {
    forall g | g in files[1..]
      ensures IsFile(r, d + [g])
    {
      var i :| 0 <= i < |files[1..]| && files[1..][i] == g;
      assert files[i + 1] == g;
      assert (d + [g])[|d|] == g;
    }
  }

  /** The comprehension at line 161: the listed names that are regular files, in listing order. */
  function FilesOf(fs: FS, d: Path, listing: seq<string>): (files: seq<string>)
    ensures forall f :: f in files <==> f in listing && IsFile(fs, d + [f])
    ensures Distinct(listing) ==> Distinct(files)
    decreases |listing|
  {
    if listing == [] then []
    else
      var rest := FilesOf(fs, d, listing[1..]);
      assert Distinct(listing) ==> listing[0] !in listing[1..];
      if IsFile(fs, d + [listing[0]]) then [listing[0]] + rest else rest
  }

  /** The filter keeps listing order: filtering a concatenation concatenates the filtered
      parts. */
  lemma {:induction false} FilesOfAppend(fs: FS, d: Path, a: seq<string>, b: seq<string>)
    ensures FilesOf(fs, d, a + b) == FilesOf(fs, d, a) + FilesOf(fs, d, b)
    decreases |a|
  {
    if a != [] {
      assert (a + b)[0] == a[0] && (a + b)[1..] == a[1..] + b;
      FilesOfAppend(fs, d, a[1..], b);
    } else {
      assert a + b == b;
    }
  }

  /** What `os.listdir` promises: each child of `d` exactly once, in some order. */
  predicate IsListing(fs: FS, d: Path, listing: seq<string>)
  {
    && Distinct(listing)
    && (forall c :: c in listing ==> c in Children(fs, d))
    && (forall c :: c in Children(fs, d) ==> c in listing)
  }

  /** `organize_files_by_extension` on directory `d`, with `listing` the order in which
      `os.listdir` returns its entries. A `d` that is not a directory fails at once. */
  function Organize(fs: FS, d: Path, listing: seq<string>): (r: Progress)
    requires WellFormed(fs)
    requires IsDir(fs, d) ==> IsListing(fs, d, listing)
    ensures !IsDir(fs, d) ==> r == Progress(fs, false)
    ensures WellFormed(r.fs)
  {
    if !IsDir(fs, d) then
      Progress(fs, false)
    else
      var files := FilesOf(fs, d, listing);
      assert forall f :: f in files ==> IsFile(fs, d + [f]);
      Run(fs, d, files)
  }

  /** Where organizing sends each moving file: file name to the name of its directory. */
  type Plan = map<string, string>

  /** File names and directory names of a plan never meet: every file name has a dot and
      no directory name has one. */
  predicate Apart(plan: Plan)
  {
    forall f :: f in plan ==> '.' in f && '.' !in plan[f]
  }

  /** The plan for the names in `files` that move. */
  function MovingOf(files: seq<string>): (plan: Plan)
    ensures forall f :: f in plan <==> f in files && Moves(f)
    ensures forall f :: f in plan ==> plan[f] == Extension(f)
  {
    map f | f in files && Moves(f) :: Extension(f)
  }

  /** The plan for the regular files directly inside `d`. */
  function Movable(fs: FS, d: Path): (plan: Plan)
    ensures forall f :: f in plan <==> IsFile(fs, d + [f]) && Moves(f)
    ensures forall f :: f in plan ==> plan[f] == Extension(f)
  {
    assert forall f :: IsFile(fs, d + [f]) ==> f in Children(fs, d) by {
      forall f | IsFile(fs, d + [f])
        ensures f in Children(fs, d)
      {
        ChildMember(fs, d, f);
      }
    }
    map f | f in Children(fs, d) && IsFile(fs, d + [f]) && Moves(f) :: Extension(f)
  }

  /** A plan that sends each moving file to its extension directory keeps names apart. */
  lemma ExtensionPlanApart(plan: Plan)
    requires forall f :: f in plan ==> Moves(f) && plan[f] == Extension(f)
    ensures Apart(plan)
  {
    forall f | f in plan
      ensures '.' in f && '.' !in plan[f]
    {
      MovingNameHasDot(f);
      ExtensionShape(f);
    }
  }

  /** The plan for a list is the plan for its head joined with the plan for its tail. */
  lemma MovingOfCons(files: seq<string>)
    requires files != [] && Distinct(files)
    ensures MovingOf([files[0]]).Keys !! MovingOf(files[1..]).Keys
    ensures MovingOf(files) == MovingOf([files[0]]) + MovingOf(files[1..])
  {
    assert files[0] !in files[1..];
    assert files == [files[0]] + files[1..];
    var a := MovingOf(files);
    var b := MovingOf([files[0]]) + MovingOf(files[1..]);
    assert a.Keys == b.Keys;
  }

  /** `q` is `d/f` for a file `f` of the plan: an entry that moved away. */
  predicate Moved(d: Path, plan: Plan, q: Path)
  {
    |q| == |d| + 1 && q[..|d|] == d && q[|d|] in plan
  }

  /** `q` is a planned directory `d/e` or a destination `d/e/f`. */
  predicate Added(d: Path, plan: Plan, q: Path)
  {
    && |q| > |d| && q[..|d|] == d
    && (|| (|q| == |d| + 1 && exists f :: f in plan && plan[f] == q[|d|])
        || (|q| == |d| + 2 && q[|d| + 1] in plan && q[|d|] == plan[q[|d| + 1]]))
  }

  /** Every file of the plan sits in its planned directory under `d`, and not directly in `d`. */
  predicate Arrived(r: FS, d: Path, plan: Plan)
  {
    forall f :: f in plan ==>
      IsDir(r, d + [plan[f]]) && IsFile(r, d + [plan[f], f]) && d + [f] !in r
  }

  /** Every entry of `fs` that the plan does not move is in `r` unchanged. Entries are only
      their kinds, so a file at a planned destination that the move replaces counts as
      unchanged (see `StepOverwrites`). */
  predicate Kept(fs: FS, r: FS, d: Path, plan: Plan)
  {
    forall q :: q in fs && !Moved(d, plan, q) ==> q in r && r[q] == fs[q]
  }

  /** Every entry of `r` that was not in `fs` is a planned directory or destination. */
  predicate OnlyPlanned(fs: FS, r: FS, d: Path, plan: Plan)
  {
    forall q :: q in r && q !in fs ==> Added(d, plan, q)
  }

  /** `r` is `fs` with every file `f` of the plan moved from `d/f` to `d/e/f`, `e` being its
      planned directory: the directories exist, the files sit in them, the originals are
      gone, every other entry is as it was, and nothing else appeared. A file already at
      a destination is replaced, which `Kept` cannot tell apart. */
  predicate Relocated(fs: FS, r: FS, d: Path, plan: Plan)
  {
    WellFormed(r) && Arrived(r, d, plan) && Kept(fs, r, d, plan) && OnlyPlanned(fs, r, d, plan)
  }

  /** Nothing stands in the way of moving `f`: its extension directory is not a file, and
      that directory holds no sub-directory named `f`. */
  predicate Clear(fs: FS, d: Path, f: string)
  {
    Moves(f) ==> !IsFile(fs, d + [Extension(f)]) && !IsDir(fs, d + [Extension(f), f])
  }

  /** Half of `RelocatedUnique`: every entry of one result is in the other, with the same kind. */
  lemma RelocatedIncluded(fs: FS, r1: FS, r2: FS, d: Path, plan: Plan)
    requires Arrived(r1, d, plan) && Kept(fs, r1, d, plan) && OnlyPlanned(fs, r1, d, plan)
    requires Arrived(r2, d, plan) && Kept(fs, r2, d, plan)
    ensures forall q :: q in r1 ==> q in r2 && r2[q] == r1[q]
  {
    forall q | q in r1
      ensures q in r2 && r2[q] == r1[q]
    {
      if q in fs {
        if Moved(d, plan, q) {
          assert q == d + [q[|d|]];
        }
      } else {
        PlannedArrives(r1, r2, d, plan, q);
      }
    }
  }

  /** A planned directory or destination holds the same kind in any two results. */
  lemma PlannedArrives(r1: FS, r2: FS, d: Path, plan: Plan, q: Path)
    requires Arrived(r1, d, plan) && Arrived(r2, d, plan)
    requires q in r1 && Added(d, plan, q)
    ensures q in r2 && r2[q] == r1[q]
  {
    if |q| == |d| + 1 {
      var f :| f in plan && plan[f] == q[|d|];
      assert q == d + [plan[f]];
    } else {
      assert q == d + [plan[q[|d| + 1]], q[|d| + 1]];
    }
  }

  /** The description `Relocated` leaves no freedom: it determines the result. */
  lemma RelocatedUnique(fs: FS, r1: FS, r2: FS, d: Path, plan: Plan)
    requires Relocated(fs, r1, d, plan) && Relocated(fs, r2, d, plan)
    ensures r1 == r2
  {
    RelocatedIncluded(fs, r1, r2, d, plan);
    RelocatedIncluded(fs, r2, r1, d, plan);
    assert r1.Keys == r2.Keys;
  }

  lemma AddedMonotone(d: Path, plan: Plan, bigger: Plan, q: Path)
    requires plan.Keys <= bigger.Keys && (forall f :: f in plan ==> bigger[f] == plan[f])
    requires Added(d, plan, q)
    ensures Added(d, bigger, q)
  {
    if |q| == |d| + 1 {
      var f :| f in plan && plan[f] == q[|d|];
      assert f in bigger && bigger[f] == q[|d|];
    }
  }

  /** Carrying out one plan and then a second one on other files carries out both. */
  lemma RelocatedCompose(fs: FS, r1: FS, r2: FS, d: Path, p1: Plan, p2: Plan)
    requires Relocated(fs, r1, d, p1) && Relocated(r1, r2, d, p2)
    requires p1.Keys !! p2.Keys && Apart(p1) && Apart(p2)
    ensures Relocated(fs, r2, d, p1 + p2)
  {
    ComposeArrived(r1, r2, d, p1, p2);
    ComposeKept(fs, r1, r2, d, p1, p2);
    ComposeAdded(fs, r1, r2, d, p1, p2);
  }

  lemma ComposeArrived(r1: FS, r2: FS, d: Path, p1: Plan, p2: Plan)
    requires Arrived(r1, d, p1) && Arrived(r2, d, p2)
    requires Kept(r1, r2, d, p2) && OnlyPlanned(r1, r2, d, p2)
    requires Apart(p1) && Apart(p2)
    ensures Arrived(r2, d, p1 + p2)
  {
    forall f | f in p1
      ensures IsDir(r2, d + [p1[f]]) && IsFile(r2, d + [p1[f], f]) && d + [f] !in r2
    {
      ArrivedStays(r1, r2, d, p1, p2, f);
    }
  }

  /** A file of the first plan stays where it arrived while the second plan runs. */
  lemma ArrivedStays(r1: FS, r2: FS, d: Path, p1: Plan, p2: Plan, f: string)
    requires f in p1
    requires IsDir(r1, d + [p1[f]]) && IsFile(r1, d + [p1[f], f]) && d + [f] !in r1
    requires Kept(r1, r2, d, p2) && OnlyPlanned(r1, r2, d, p2)
    requires Apart(p1) && Apart(p2)
    ensures IsDir(r2, d + [p1[f]]) && IsFile(r2, d + [p1[f], f]) && d + [f] !in r2
  {
    var bin := d + [p1[f]];
    assert !Moved(d, p2, bin) by {
      assert bin[|d|] == p1[f];
    }
    assert !Moved(d, p2, d + [p1[f], f]);
    assert (d + [f])[|d|] == f;
  }

  lemma ComposeKept(fs: FS, r1: FS, r2: FS, d: Path, p1: Plan, p2: Plan)
    requires Relocated(fs, r1, d, p1) && Relocated(r1, r2, d, p2)
    ensures forall q :: q in fs && !Moved(d, p1 + p2, q) ==> q in r2 && r2[q] == fs[q]
  {
    forall q | q in fs && !Moved(d, p1 + p2, q)
      ensures q in r2 && r2[q] == fs[q]
    {
      assert !Moved(d, p1, q) && !Moved(d, p2, q);
    }
  }

  lemma ComposeAdded(fs: FS, r1: FS, r2: FS, d: Path, p1: Plan, p2: Plan)
    requires Relocated(fs, r1, d, p1) && Relocated(r1, r2, d, p2)
    requires p1.Keys !! p2.Keys
    ensures forall q :: q in r2 && q !in fs ==> Added(d, p1 + p2, q)
  {
    forall q | q in r2 && q !in fs
      ensures Added(d, p1 + p2, q)
    {
      if q in r1 {
        AddedMonotone(d, p1, p1 + p2, q);
      } else {
        AddedMonotone(d, p2, p1 + p2, q);
      }
    }
  }

  /** One step carries out the plan for its file when nothing is in the way, and plans
      nothing when the file has no extension to move under. */
  lemma StepRelocates(fs: FS, d: Path, f: string)
    requires WellFormed(fs) && IsFile(fs, d + [f]) && Clear(fs, d, f)
    ensures Step(fs, d, f).ok
    ensures Relocated(fs, Step(fs, d, f).fs, d, MovingOf([f]))
  {
    MovingOfOne(f);
    if Moves(f) {
      var e := Extension(f);
      var fs1 := if d + [e] in fs then fs else fs[d + [e] := Dir];
      StepMoves(fs, d, f);
      MovedRelocated(fs, fs1, d, f, e);
    }
  }

  /** The plan for a single name: its extension directory if it has one, else nothing. */
  lemma MovingOfOne(f: string)
    ensures MovingOf([f]) == if Moves(f) then map[f := Extension(f)] else map[]
  {
    var plan := MovingOf([f]);
    if Moves(f) {
      assert f in [f];
      OneKeyMap(plan, f, Extension(f));
    } else {
      assert plan.Keys == {};
    }
  }

  lemma OneKeyMap(plan: Plan, k: string, v: string)
    requires k in plan && plan[k] == v && forall g :: g in plan ==> g == k
    ensures plan == map[k := v]
  {
  }

  /** The result of a step on a moving file with nothing in the way: the extension
      directory is there, and the file is renamed into it. */
  lemma StepMoves(fs: FS, d: Path, f: string)
    requires WellFormed(fs) && IsFile(fs, d + [f]) && Clear(fs, d, f) && Moves(f)
    ensures var e := Extension(f);
            var fs1 := if d + [e] in fs then fs else fs[d + [e] := Dir];
            Step(fs, d, f) == Progress((fs1 - {d + [f]})[d + [e, f] := File], true)
  {
    var e := Extension(f);
    var src := d + [f];
    var bin := d + [e];
    var dst := d + [e, f];
    assert Parent(src) == d && Parent(bin) == d && Parent(dst) == bin;
    assert Placed(fs, src);
    assert bin + [f] == dst;
    ExtensionShape(f);
    assert SplitExt(f).1[1..] == e;
    var fs1 := if bin in fs then fs else fs[bin := Dir];
    if bin in fs {
      MakeDirsExisting(fs, bin);
    } else {
      MakeDirsChild(fs, bin);
    }
    assert MakeDirs(fs, bin) == Ok(fs1);
    MovingNameHasDot(f);
    assert bin != src by { assert bin[|d|] != src[|d|]; }
    assert !IsDir(fs1, dst);
    assert Rename(fs1, src, dst).Ok?;
  }

  /** `os.rename` replaces a regular file already at `d/e/f`: the step succeeds and the
      tree loses the entry `d/f` without gaining one, so one of the two files is gone. */
  lemma StepOverwrites(fs: FS, d: Path, f: string)
    requires WellFormed(fs) && IsFile(fs, d + [f]) && Moves(f)
    requires IsFile(fs, d + [Extension(f), f])
    ensures Step(fs, d, f).ok
    ensures Step(fs, d, f).fs.Keys == fs.Keys - {d + [f]}
  {
    var e := Extension(f);
    var dst := d + [e, f];
    AncestorsAreDirs(fs, dst);
    assert dst[..|d| + 1] == d + [e];
    assert IsDir(fs, d + [e]);
    StepMoves(fs, d, f);
  }

  /** Renaming `d/f` to `d/e/f` after making `d/e` carries out the one-file plan. */
  lemma MovedRelocated(fs: FS, fs1: FS, d: Path, f: string, e: string)
    requires WellFormed(fs) && IsFile(fs, d + [f])
    requires '.' in f && '.' !in e
    requires fs1 == if d + [e] in fs then fs else fs[d + [e] := Dir]
    requires !IsFile(fs, d + [e]) && !IsDir(fs, d + [e, f])
    requires WellFormed((fs1 - {d + [f]})[d + [e, f] := File])
    ensures Relocated(fs, (fs1 - {d + [f]})[d + [e, f] := File], d, map[f := e])
  {
    var r := (fs1 - {d + [f]})[d + [e, f] := File];
    assert (d + [e])[|d|] == e && (d + [f])[|d|] == f;
    assert d + [e] != d + [f];
    assert (d + [e, f])[|d| + 1] == f && (d + [e, f])[|d|] == e;
    var plan := map[f := e];
    forall q | q in r && q !in fs
      ensures Added(d, plan, q)
    {
      if q == d + [e] {
        assert q[..|d|] == d && |q| == |d| + 1;
        assert f in plan && plan[f] == q[|d|];
      } else {
        assert q == d + [e, f];
        assert q[..|d|] == d && |q| == |d| + 2;
        assert q[|d| + 1] == f && q[|d|] == plan[f];
      }
    }
  }

  /** What makes a later file ready for its step still holds after earlier moves. */
  lemma StillClear(fs: FS, r: FS, d: Path, plan: Plan, g: string)
    requires Relocated(fs, r, d, plan) && Apart(plan)
    requires g !in plan && IsFile(fs, d + [g]) && Clear(fs, d, g)
    ensures IsFile(r, d + [g]) && Clear(r, d, g)
  {
    assert !Moved(d, plan, d + [g]) by { assert (d + [g])[|d|] == g; }
    if Moves(g) {
      ExtensionShape(g);
      var bin := d + [Extension(g)];
      var dst := d + [Extension(g), g];
      assert bin[|d|] == Extension(g);
      if bin !in fs && bin in r {
        var f :| f in plan && plan[f] == bin[|d|];
        assert bin == d + [plan[f]];
      }
      assert dst[|d| + 1] == g;
    }
  }

  /** The loop carries out the plan for the files that move, provided none is blocked. */
  lemma {:induction false} RunRelocates(fs: FS, d: Path, files: seq<string>)
    requires WellFormed(fs) && Distinct(files)
    requires forall f :: f in files ==> IsFile(fs, d + [f]) && Clear(fs, d, f)
    ensures Run(fs, d, files).ok
    ensures Relocated(fs, Run(fs, d, files).fs, d, MovingOf(files))
    decreases |files|
  {
    if files == [] {
      assert MovingOf(files) == map[];
    } else {
      var f := files[0];
      var rest := files[1..];
      StepRelocates(fs, d, f);
      var s := Step(fs, d, f);
      RestReady(fs, s.fs, d, files);
      RunRelocates(s.fs, d, rest);
      MovingOfCons(files);
      ExtensionPlanApart(MovingOf([f]));
      ExtensionPlanApart(MovingOf(rest));
      RelocatedCompose(fs, s.fs, Run(s.fs, d, rest).fs, d, MovingOf([f]), MovingOf(rest));
    }
  }

  /** After the first step, the remaining files are still files and still unblocked. */
  lemma RestReady(fs: FS, r: FS, d: Path, files: seq<string>)
    requires files != [] && Distinct(files)
    requires forall f :: f in files ==> IsFile(fs, d + [f]) && Clear(fs, d, f)
    requires Relocated(fs, r, d, MovingOf([files[0]]))
    ensures Distinct(files[1..])
    ensures forall g :: g in files[1..] ==> IsFile(r, d + [g]) && Clear(r, d, g)
  {
    var p1 := MovingOf([files[0]]);
    ExtensionPlanApart(p1);
    forall g | g in files[1..]
      ensures IsFile(r, d + [g]) && Clear(r, d, g)
    {
      var i :| 0 <= i < |files[1..]| && files[1..][i] == g;
      assert files[i + 1] == g;
      StillClear(fs, r, d, p1, g);
    }
  }

  /** The main property: when no file is blocked, organizing succeeds and moves exactly
      the regular files with an extension, each into the directory named after it. */
  lemma OrganizeRelocates(fs: FS, d: Path, listing: seq<string>)
    requires WellFormed(fs) && IsDir(fs, d) && IsListing(fs, d, listing)
    requires forall f :: IsFile(fs, d + [f]) ==> Clear(fs, d, f)
    ensures Organize(fs, d, listing).ok
    ensures Relocated(fs, Organize(fs, d, listing).fs, d, Movable(fs, d))
  {
    var files := FilesOf(fs, d, listing);
    RunRelocates(fs, d, files);
    ExtensionPlanApart(Movable(fs, d));
    forall f | IsFile(fs, d + [f])
      ensures f in listing
    {
      ChildMember(fs, d, f);
    }
    assert MovingOf(files) == Movable(fs, d);
  }

  /** The order `os.listdir` happens to use does not change the outcome. */
  lemma OrganizeOrderIrrelevant(fs: FS, d: Path, l1: seq<string>, l2: seq<string>)
    requires WellFormed(fs) && IsDir(fs, d) && IsListing(fs, d, l1) && IsListing(fs, d, l2)
    requires forall f :: IsFile(fs, d + [f]) ==> Clear(fs, d, f)
    ensures Organize(fs, d, l1) == Organize(fs, d, l2)
  {
    OrganizeRelocates(fs, d, l1);
    OrganizeRelocates(fs, d, l2);
    RelocatedUnique(fs, Organize(fs, d, l1).fs, Organize(fs, d, l2).fs, d, Movable(fs, d));
  }

  /** A file named like a moving file's extension blocks the run, whatever the order. */
  lemma {:induction false} RunStopsOnClash(fs: FS, d: Path, files: seq<string>, f: string)
    requires WellFormed(fs) && Distinct(files)
    requires forall g :: g in files ==> IsFile(fs, d + [g])
    requires f in files && Moves(f) && IsFile(fs, d + [Extension(f)])
    ensures !Run(fs, d, files).ok
    decreases |files|
  {
    var g := files[0];
    if g == f {
      var bin := d + [Extension(f)];
      assert bin[..|bin|] == bin;
      assert MakeDirs(fs, bin).Err?;
    } else {
      var s := Step(fs, d, g);
      if s.ok {
        if Moves(g) {
          MovingNameHasDot(g);
          ExtensionShape(f);
          assert d + [Extension(f)] != d + [g] by { assert (d + [g])[|d|] == g; }
        }
        OthersStayFiles(fs, s.fs, d, files);
        RunStopsOnClash(s.fs, d, files[1..], f);
      }
    }
  }

  /** Organizing fails when a regular file is named like another file's extension, such
      as a file `txt` next to `a.txt`. */
  lemma OrganizeStopsOnClash(fs: FS, d: Path, listing: seq<string>, f: string)
    requires WellFormed(fs) && IsDir(fs, d) && IsListing(fs, d, listing)
    requires IsFile(fs, d + [f]) && Moves(f) && IsFile(fs, d + [Extension(f)])
    ensures !Organize(fs, d, listing).ok
  {
    ChildMember(fs, d, f);
    RunStopsOnClash(fs, d, FilesOf(fs, d, listing), f);
  }

  /** The worked example: a directory holding `a.txt`, `b.txt` and `c`. */
  function ExampleBefore(): FS
  {
    map[[] := Dir, ["d"] := Dir, ["d", "a.txt"] := File, ["d", "b.txt"] := File, ["d", "c"] := File]
  }

  function ExampleAfter(): FS
  {
    map[[] := Dir, ["d"] := Dir, ["d", "c"] := File,
        ["d", "txt"] := Dir, ["d", "txt", "a.txt"] := File, ["d", "txt", "b.txt"] := File]
  }

  /** A one-character stem followed by `.txt` belongs in `txt`. */
  lemma ExtensionTxt(stem: string)
    requires |stem| == 1 && stem[0] != '.' && stem[0] != '/'
    ensures Extension(stem + ".txt") == "txt"
  {
    assert LastIndex(stem, '/') == -1;
    assert HasNonDot(stem, 0, 1);
    ExtensionOfNamed(stem, "txt");
    assert stem + "." + "txt" == stem + ".txt";
  }

  lemma ExampleNames()
    ensures Extension("a.txt") == "txt" && Extension("b.txt") == "txt"
    ensures !Moves("c")
  {
    ExtensionTxt("a");
    ExtensionTxt("b");
    assert "a" + ".txt" == "a.txt" && "b" + ".txt" == "b.txt";
    assert LastIndex("c", '.') == -1;
  }

  lemma ExampleWellFormed()
    ensures WellFormed(ExampleBefore()) && WellFormed(ExampleAfter())
  {
    var fs := ExampleBefore();
    forall q | q in fs
      ensures Placed(fs, q)
    {
      if |q| == 2 {
        assert Parent(q) == ["d"];
      }
    }
    var r := ExampleAfter();
    forall q | q in r
      ensures Placed(r, q)
    {
      if |q| == 2 {
        assert Parent(q) == ["d"];
      } else if |q| == 3 {
        assert Parent(q) == ["d", "txt"];
      }
    }
  }

  lemma ExampleChildren(c: string)
    ensures c in Children(ExampleBefore(), ["d"]) <==> c in {"a.txt", "b.txt", "c"}
    ensures IsFile(ExampleBefore(), ["d"] + [c]) <==> c in {"a.txt", "b.txt", "c"}
  {
    ChildMember(ExampleBefore(), ["d"], c);
    var q: Path := ["d"] + [c];
    assert q[1] == c && |q| == 2 && q[0] == "d";
  }

  lemma ExampleListing(listing: seq<string>)
    requires Distinct(listing) && forall c :: c in listing <==> c in {"a.txt", "b.txt", "c"}
    ensures IsListing(ExampleBefore(), ["d"], listing)
    ensures Movable(ExampleBefore(), ["d"]) == map["a.txt" := "txt", "b.txt" := "txt"]
  {
    forall c
      ensures c in Children(ExampleBefore(), ["d"]) <==> c in {"a.txt", "b.txt", "c"}
      ensures IsFile(ExampleBefore(), ["d"] + [c]) <==> c in {"a.txt", "b.txt", "c"}
    {
      ExampleChildren(c);
    }
    ExampleMovable();
  }

  lemma ExampleMovable()
    ensures Movable(ExampleBefore(), ["d"]) == map["a.txt" := "txt", "b.txt" := "txt"]
  {
    ExampleMovableKeys();
    ExampleNames();
    TwoEntryPlan(Movable(ExampleBefore(), ["d"]), "a.txt", "b.txt", "txt");
  }

  /** A plan with two keys, both sent to the same directory, is that map. */
  lemma TwoEntryPlan(plan: Plan, a: string, b: string, e: string)
    requires plan.Keys == {a, b} && plan[a] == e && plan[b] == e
    ensures plan == map[a := e, b := e]
  {
  }

  lemma ExampleMovableKeys()
    ensures Movable(ExampleBefore(), ["d"]).Keys == {"a.txt", "b.txt"}
  {
    ExampleMovableOnly();
    ExampleMovableBoth();
  }

  lemma ExampleMovableOnly()
    ensures forall c :: c in Movable(ExampleBefore(), ["d"]) ==> c in {"a.txt", "b.txt"}
  {
    ExampleNames();
    forall c | c in Movable(ExampleBefore(), ["d"])
      ensures c in {"a.txt", "b.txt"}
    {
      ExampleChildren(c);
    }
  }

  lemma ExampleMovableBoth()
    ensures "a.txt" in Movable(ExampleBefore(), ["d"]) && "b.txt" in Movable(ExampleBefore(), ["d"])
  {
    ExampleNames();
    ExampleChildren("a.txt");
    ExampleChildren("b.txt");
  }

  lemma ExampleClear()
    ensures forall f :: IsFile(ExampleBefore(), ["d"] + [f]) ==> Clear(ExampleBefore(), ["d"], f)
  {
    forall f | IsFile(ExampleBefore(), ["d"] + [f])
      ensures Clear(ExampleBefore(), ["d"], f)
    {
      ExampleChildren(f);
      if f == "c" {
        ExampleNames();
      } else {
        ExampleTxtClear(f);
      }
    }
  }

  /** Nothing is in the way of either text file: there is no `d/txt` yet. */
  lemma ExampleTxtClear(f: string)
    requires f == "a.txt" || f == "b.txt"
    ensures Clear(ExampleBefore(), ["d"], f)
  {
    ExampleNames();
    assert ["d"] + [Extension(f)] == ["d", "txt"];
    assert ["d"] + [Extension(f), f] == ["d", "txt", f];
    ExampleNoTxt();
  }

  lemma ExampleNoTxt()
    ensures ["d", "txt"] !in ExampleBefore()
    ensures forall g :: ["d", "txt", g] !in ExampleBefore()
  {
    var fs := ExampleBefore();
    assert fs.Keys == {[], ["d"], ["d", "a.txt"], ["d", "b.txt"], ["d", "c"]};
    assert |"txt"| != |"a.txt"| && "txt" != "c";
  }

  /** Organizing the example directory, in whatever order it is listed, moves `a.txt`
      and `b.txt` into a new directory `txt` and leaves `c` where it was. */
  lemma OrganizeExample(listing: seq<string>)
    requires Distinct(listing) && forall c :: c in listing <==> c in {"a.txt", "b.txt", "c"}
    ensures WellFormed(ExampleBefore()) && IsListing(ExampleBefore(), ["d"], listing)
    ensures Organize(ExampleBefore(), ["d"], listing) == Progress(ExampleAfter(), true)
  {
    var fs := ExampleBefore();
    var d: Path := ["d"];
    var plan := map["a.txt" := "txt", "b.txt" := "txt"];
    ExampleWellFormed();
    ExampleListing(listing);
    ExampleClear();
    OrganizeRelocates(fs, d, listing);
    ExampleRelocated();
    RelocatedUnique(fs, Organize(fs, d, listing).fs, ExampleAfter(), d, plan);
  }

  lemma ExampleRelocated()
    ensures Relocated(ExampleBefore(), ExampleAfter(), ["d"], map["a.txt" := "txt", "b.txt" := "txt"])
  {
    ExampleWellFormed();
    ExampleArrived();
    ExampleKept();
    ExampleAdded();
  }

  lemma ExampleArrived()
    ensures var r := ExampleAfter();
            var plan := map["a.txt" := "txt", "b.txt" := "txt"];
            forall f :: f in plan ==> IsDir(r, ["d"] + [plan[f]]) && IsFile(r, ["d"] + [plan[f], f]) && ["d"] + [f] !in r
  {
    var d: Path := ["d"];
    assert d + ["txt"] == ["d", "txt"];
    assert d + ["txt", "a.txt"] == ["d", "txt", "a.txt"];
    assert d + ["txt", "b.txt"] == ["d", "txt", "b.txt"];
    assert d + ["a.txt"] == ["d", "a.txt"] && d + ["b.txt"] == ["d", "b.txt"];
  }

  lemma ExampleKept()
    ensures var plan := map["a.txt" := "txt", "b.txt" := "txt"];
            forall q :: q in ExampleBefore() && !Moved(["d"], plan, q) ==> q in ExampleAfter() && ExampleAfter()[q] == ExampleBefore()[q]
  {
    var plan := map["a.txt" := "txt", "b.txt" := "txt"];
    forall q | q in ExampleBefore() && !Moved(["d"], plan, q)
      ensures q in ExampleAfter() && ExampleAfter()[q] == ExampleBefore()[q]
    {
      if |q| == 2 {
        assert q[..1] == ["d"];
      }
    }
  }

  lemma ExampleAdded()
    ensures var plan := map["a.txt" := "txt", "b.txt" := "txt"];
            forall q :: q in ExampleAfter() && q !in ExampleBefore() ==> Added(["d"], plan, q)
  {
    var d: Path := ["d"];
    var plan := map["a.txt" := "txt", "b.txt" := "txt"];
    forall q | q in ExampleAfter() && q !in ExampleBefore()
      ensures Added(d, plan, q)
    {
      assert q[..1] == d;
      if |q| == 2 {
        assert plan["a.txt"] == q[|d|];
      }
    }
  }
}

=== FILE: outcome.dfy ===
/** The success-or-failure shape every file operation returns. The source turns every
    exception into an error message; only the distinction between the two is kept here. */
module Outcomes {

  datatype Outcome<T> = Ok(value: T) | Err
}

=== FILE: posix_path.dfy ===
/** The parts of Python's `posixpath` module that the file server relies on:
    `isabs`, `join`, `normpath`, `abspath` and `splitext`. The current directory
    that `abspath` consults is a parameter. */
module PosixPath {
  import opened Text

  /** `posixpath.isabs`: a path is absolute iff it begins with a slash. */
  predicate IsAbs(p: string)
  {
    |p| > 0 && p[0] == '/'
  }

  /** One step of `posixpath.join`: an absolute component replaces everything so far;
      otherwise a slash is inserted unless the path so far is empty or already ends
      with one. */
  function Join2(a: string, b: string): (r: string)
    ensures IsAbs(b) ==> r == b
    ensures !IsAbs(b) ==> StartsWith(r, a)
  {
    if IsAbs(b) then b
    else if a == "" || EndsWith(a, '/') then a + b
    else a + "/" + b
  }

  /** `posixpath.join(a, *ps)`. */
  function JoinAll(a: string, ps: seq<string>): string
    decreases |ps|
  {
    if ps == [] then a else JoinAll(Join2(a, ps[0]), ps[1..])
  }

  predicate NoneAbsolute(ps: seq<string>)
  {
    forall k :: 0 <= k < |ps| ==> !IsAbs(ps[k])
  }

  /** A component that begins with a slash discards everything joined before it. */
  lemma {:induction false} JoinAllReset(a: string, xs: seq<string>, b: string, ys: seq<string>)
    requires IsAbs(b)
    ensures JoinAll(a, xs + [b] + ys) == JoinAll(b, ys)
    decreases |xs|
  {
    if xs == [] {
      assert xs + [b] + ys == [b] + ys;
      assert ([b] + ys)[1..] == ys;
    } else {
      assert (xs + [b] + ys)[0] == xs[0];
      assert (xs + [b] + ys)[1..] == xs[1..] + [b] + ys;
      JoinAllReset(Join2(a, xs[0]), xs[1..], b, ys);
    }
  }

  /** Without absolute components, the first argument of `join` survives as a prefix. */
  lemma {:induction false} JoinAllKeepsBase(a: string, ps: seq<string>)
    requires NoneAbsolute(ps)
    ensures StartsWith(JoinAll(a, ps), a)
    decreases |ps|
  {
    if ps != [] {
      var a' := Join2(a, ps[0]);
      assert NoneAbsolute(ps[1..]) by {
        forall k | 0 <= k < |ps[1..]| ensures !IsAbs(ps[1..][k]) {
          assert ps[1..][k] == ps[k + 1];
        }
      }
      JoinAllKeepsBase(a', ps[1..]);
      var r := JoinAll(a', ps[1..]);
      assert r[..|a|] == r[..|a'|][..|a|];
    }
  }

  /** The quirks of `join` with empty components: `join(a, "")` ends in a slash,
      and an empty component in the middle adds nothing (`join("a", "", "b") == "a/b"`). */
  lemma JoinEmptyComponents(a: string, b: string)
    requires a != "" && !EndsWith(a, '/')
    requires !IsAbs(b)
    ensures JoinAll(a, [""]) == a + "/"
    ensures JoinAll(a, ["", b]) == a + "/" + b
  {
    assert ["", b][1..] == [b];
    assert Join2(a, "") == a + "/";
    assert EndsWith(a + "/", '/');
    assert Join2(a + "/", b) == a + "/" + b;
    assert JoinAll(a, ["", b]) == JoinAll(a + "/", [b]);
    assert [b][1..] == [];
    assert JoinAll(a + "/", [b]) == Join2(a + "/", b);
  }

  /** Number of leading slashes `normpath` keeps: POSIX lets exactly two stand, and
      one or three or more collapse to one. */
  function LeadingSlashes(p: string): nat
  {
    if StartsWith(p, "//") && !StartsWith(p, "///") then 2
    else if StartsWith(p, "/") then 1
    else 0
  }

  function Slashes(n: nat): string
  {
    seq(n, _ => '/')
  }

  /** The components `normpath` may leave behind: no empty ones, no `.`, and no `..`
      under a root; any `..` comes before every proper name. */
  predicate Collapsed(cs: seq<string>, rooted: bool)
  {
    && (forall k :: 0 <= k < |cs| ==> cs[k] != "" && cs[k] != ".")
    && (rooted ==> forall k :: 0 <= k < |cs| ==> cs[k] != "..")
    && (forall i, j :: 0 <= i < j < |cs| && cs[j] == ".." ==> cs[i] == "..")
  }

  /** One iteration of the component loop in `normpath`. */
  function CollapseStep(acc: seq<string>, c: string, rooted: bool): seq<string>
  {
    if c == "" || c == "." then acc
    else if c != ".." || (!rooted && acc == []) || (acc != [] && acc[|acc| - 1] == "..") then acc + [c]
    else if acc != [] then acc[..|acc| - 1]
    else acc
  }

  /** The component loop of `normpath`, folding `CollapseStep` over `comps`. */
  function Collapse(comps: seq<string>, acc: seq<string>, rooted: bool): (r: seq<string>)
    ensures Collapsed(acc, rooted) ==> Collapsed(r, rooted)
    ensures SeparatorFree(acc, '/') && SeparatorFree(comps, '/') ==> SeparatorFree(r, '/')
    decreases |comps|
  {
    if comps == [] then acc
    else
      var acc' := CollapseStep(acc, comps[0], rooted);
      assert SeparatorFree(acc, '/') && SeparatorFree(comps, '/') ==> SeparatorFree(acc', '/');
      assert SeparatorFree(comps, '/') ==> SeparatorFree(comps[1..], '/');
      Collapse(comps[1..], acc', rooted)
  }

  /** `posixpath.normpath`. */
  function NormPath(p: string): (r: string)
    ensures r != ""
    ensures IsAbs(p) ==> IsAbs(r)
  {
    if p == "" then "."
    else
      var n := LeadingSlashes(p);
      var r := Slashes(n) + Join('/', Collapse(Split(p, '/'), [], n > 0));
      if r == "" then "." else r
  }

  /** `posixpath.abspath`, with the process's current directory as a parameter. */
  function AbsPath(cwd: string, p: string): (r: string)
    ensures IsAbs(cwd) ==> IsAbs(r)
  {
    NormPath(if IsAbs(p) then p else Join2(cwd, p))
  }

  /** Once collapsed, further collapsing only appends. */
  lemma {:induction false} CollapseFixed(cs: seq<string>, acc: seq<string>, rooted: bool)
    requires Collapsed(acc + cs, rooted)
    ensures Collapse(cs, acc, rooted) == acc + cs
    decreases |cs|
  {
    if cs != [] {
      var c := cs[0];
      assert (acc + cs)[|acc|] == c;
      if c == ".." && acc != [] {
        assert (acc + cs)[|acc| - 1] == acc[|acc| - 1];
      }
      assert CollapseStep(acc, c, rooted) == acc + [c];
      assert acc + [c] + cs[1..] == acc + cs;
      CollapseFixed(cs[1..], acc + [c], rooted);
    }
  }

  lemma SlashesStart(n: nat, j: string)
    requires j == "" || j[0] != '/'
    requires n <= 2
    ensures LeadingSlashes(Slashes(n) + j) == n
  {
    var s := Slashes(n) + j;
    if n == 2 {
      assert s[..2] == "//";
      assert |s| >= 3 ==> s[2] != '/';
    } else if n == 1 {
      assert s[..1] == "/";
      assert |s| >= 2 ==> s[1] != '/';
    } else {
      assert s == j;
    }
  }

  /** `'/'.join(cs)` of non-empty, slash-free components does not begin with a slash. */
  lemma JoinNoLeadingSlash(cs: seq<string>)
    requires SeparatorFree(cs, '/')
    requires forall k :: 0 <= k < |cs| ==> cs[k] != ""
    ensures Join('/', cs) == "" || Join('/', cs)[0] != '/'
  {
    if cs != [] {
      assert cs[0] != "" && '/' !in cs[0];
      if |cs| > 1 {
        assert Join('/', cs)[0] == cs[0][0];
      }
    }
  }

  lemma CollapseLeadingEmpty(xs: seq<string>, acc: seq<string>, rooted: bool)
    ensures Collapse([""] + xs, acc, rooted) == Collapse(xs, acc, rooted)
  {
    assert ([""] + xs)[1..] == xs;
  }

  /** The pieces of `n` leading slashes followed by `j`. */
  lemma SplitAfterSlashes(n: nat, j: string)
    requires 1 <= n <= 2
    ensures Split(Slashes(n) + j, '/') == (if n == 1 then [""] else ["", ""]) + Split(j, '/')
  {
    if n == 1 {
      assert Slashes(n) + j == [] + ['/'] + j;
      SplitConcat([], j, '/');
    } else {
      assert Slashes(n) + j == "/" + ['/'] + j;
      SplitConcat("/", j, '/');
      assert "/" == [] + ['/'] + [];
      SplitConcat([], [], '/');
    }
  }

  /** A path already in `normpath`'s output form is left as it is. */
  lemma NormPathOfCollapsed(n: nat, cs: seq<string>)
    requires n <= 2
    requires Collapsed(cs, n > 0) && SeparatorFree(cs, '/')
    requires n > 0 || cs != []
    ensures NormPath(Slashes(n) + Join('/', cs)) == Slashes(n) + Join('/', cs)
  {
    var j := Join('/', cs);
    var r := Slashes(n) + j;
    JoinNoLeadingSlash(cs);
    SlashesStart(n, j);
    CollapseFixed(cs, [], n > 0);
    assert [] + cs == cs;
    var tail := if cs == [] then [""] else cs;
    if cs != [] {
      SplitJoin(cs, '/');
    }
    assert Split(j, '/') == tail;
    assert Collapse(tail, [], n > 0) == cs;
    if n == 0 {
      assert r == j;
    } else {
      SplitAfterSlashes(n, j);
      if n == 1 {
        CollapseLeadingEmpty(tail, [], true);
      } else {
        assert ["", ""] + tail == [""] + ([""] + tail);
        CollapseLeadingEmpty([""] + tail, [], true);
        CollapseLeadingEmpty(tail, [], true);
      }
    }
  }

  lemma NormPathDot()
    ensures NormPath(".") == "."
  {
    assert "."[1..] == "";
    assert Split("", '/') == [""];
    assert ['.'] + "" == ".";
    assert Split(".", '/') == ["."];
    assert Collapse(["."], [], false) == [];
  }

  /** `normpath` is idempotent. */
  lemma NormPathIdempotent(p: string)
    ensures NormPath(NormPath(p)) == NormPath(p)
  {
    var r := NormPath(p);
    if r == "." {
      NormPathDot();
    } else {
      var n := LeadingSlashes(p);
      var cs := Collapse(Split(p, '/'), [], n > 0);
      assert r == Slashes(n) + Join('/', cs);
      assert n > 0 || cs != [];
      NormPathOfCollapsed(n, cs);
    }
  }

  /** A trailing slash on an absolute path makes no difference to `normpath`. */
  lemma NormPathTrailingSlash(p: string)
    requires IsAbs(p) && !EndsWith(p, '/')
    ensures NormPath(p + "/") == NormPath(p)
  {
    var q := p + "/";
    assert p + ['/'] + "" == q;
    SplitConcat(p, "", '/');
    CollapseAppendEmpty(Split(p, '/'), [], true);
    assert |p| == 1 ==> EndsWith(p, '/');
    assert q[..2] == p[..2];
    assert |p| >= 3 ==> q[..3] == p[..3];
    assert |p| == 2 ==> p[1] != '/';
  }

  lemma {:induction false} CollapseAppendEmpty(xs: seq<string>, acc: seq<string>, rooted: bool)
    ensures Collapse(xs + [""], acc, rooted) == Collapse(xs, acc, rooted)
    decreases |xs|
  {
    if xs == [] {
      assert [] + [""] == [""];
    } else {
      assert (xs + [""])[0] == xs[0];
      assert (xs + [""])[1..] == xs[1..] + [""];
      CollapseAppendEmpty(xs[1..], CollapseStep(acc, xs[0], rooted), rooted);
    }
  }

  /** The component loop over a concatenation is the loop over the second part, started
      from where the first part left off. */
  lemma {:induction false} CollapseAppend(xs: seq<string>, ys: seq<string>, acc: seq<string>, rooted: bool)
    ensures Collapse(xs + ys, acc, rooted) == Collapse(ys, Collapse(xs, acc, rooted), rooted)
    decreases |xs|
  {
    if xs == [] {
      assert xs + ys == ys;
    } else {
      assert (xs + ys)[0] == xs[0];
      assert (xs + ys)[1..] == xs[1..] + ys;
      CollapseAppend(xs[1..], ys, CollapseStep(acc, xs[0], rooted), rooted);
    }
  }

  /** True iff some character of `p[lo..hi]` is not a dot. */
  predicate HasNonDot(p: string, lo: int, hi: int)
    requires 0 <= lo && hi <= |p|
  {
    exists i :: lo <= i < hi && p[i] != '.'
  }

  /** `posixpath.splitext`: the extension runs from the last dot of the final path
      component, unless only dots precede that dot within the component (so `.bashrc`
      and `..a` have none, while `a.` has `.`). */
  function SplitExt(p: string): (r: (string, string))
    ensures r.0 + r.1 == p
    ensures r.1 == "" || (r.1[0] == '.' && '.' !in r.1[1..] && '/' !in r.1[1..])
  {
    var sepIndex := LastIndex(p, '/');
    var dotIndex := LastIndex(p, '.');
    if dotIndex > sepIndex && HasNonDot(p, sepIndex + 1, dotIndex) then
      (p[..dotIndex], p[dotIndex..])
    else
      (p, "")
  }

  lemma {:induction false} LastIndexAppend(x: string, y: string, c: char)
    ensures LastIndex(x + y, c) == if c in y then |x| + LastIndex(y, c) else LastIndex(x, c)
    decreases |y|
  {
    if y == [] {
      assert x + y == x;
    } else {
      var y' := y[..|y| - 1];
      assert (x + y)[..|x + y| - 1] == x + y';
      LastIndexAppend(x, y', c);
      assert y == y' + [y[|y| - 1]];
    }
  }

  /** The base name of `r` (after its last slash) holds a character other than a dot. */
  predicate NamedStem(r: string)
  {
    HasNonDot(r, LastIndex(r, '/') + 1, |r|)
  }

  /** `splitext` undoes appending an extension, exactly when the stem is not made of dots alone. */
  lemma SplitExtAddExtension(r: string, e: string)
    requires '.' !in e && '/' !in e
    ensures SplitExt(r + "." + e) == (r, "." + e) <==> NamedStem(r)
  {
    var p := r + "." + e;
    LastIndexAppend(r + ".", e, '.');
    LastIndexAppend(r + ".", e, '/');
    LastIndexAppend(r, ".", '/');
    assert LastIndex(".", '/') == -1 by { assert "."[..0] == ""; }
    assert LastIndex(p, '.') == |r|;
    assert LastIndex(p, '/') == LastIndex(r, '/');
    var s := LastIndex(r, '/');
    assert HasNonDot(p, s + 1, |r|) <==> HasNonDot(r, s + 1, |r|) by {
      forall i | s + 1 <= i < |r| ensures p[i] == r[i] { }
    }
    if NamedStem(r) {
      assert p[..|r|] == r;
      assert p[|r|..] == "." + e;
    }
  }

  function Dots(k: nat): string
  {
    seq(k, _ => '.')
  }

  /** A name whose only dots are leading ones has no extension (`.bashrc`, `..a`). */
  lemma SplitExtLeadingDots(k: nat, s: string)
    requires k >= 1
    requires '.' !in s && '/' !in s
    ensures SplitExt(Dots(k) + s) == (Dots(k) + s, "")
  {
    var dots := Dots(k);
    var p := dots + s;
    LastIndexAppend(dots, s, '.');
    LastIndexAppend(dots, s, '/');
    assert dots[k - 1] == '.';
    assert LastIndex(dots, '.') == k - 1;
    assert forall i :: 0 <= i < |dots| ==> dots[i] == '.';
    assert LastIndex(dots, '/') == -1;
    assert !HasNonDot(p, 0, k - 1);
  }

  /** Hidden files and dot-only stems have no extension. */
  lemma SplitExtHidden()
    ensures SplitExt(".bashrc") == (".bashrc", "")
    ensures SplitExt("..a") == ("..a", "")
  {
    SplitExtLeadingDots(1, "bashrc");
    assert Dots(1) + "bashrc" == ".bashrc";
    SplitExtLeadingDots(2, "a");
    assert Dots(2) + "a" == "..a";
  }

  /** A trailing dot is an extension of its own. */
  lemma SplitExtLoneDot()
    ensures SplitExt("a.") == ("a", ".")
  {
    SplitExtAddExtension("a", "");
    assert "a" + "." + "" == "a.";
    assert LastIndex("a", '/') == -1;
    assert NamedStem("a");
  }

  /** Only the last dot counts. */
  lemma SplitExtLastDot()
    ensures SplitExt("archive.tar.gz") == ("archive.tar", ".gz")
  {
    ArchiveTarIsNamed();
    SplitExtAddExtension("archive.tar", "gz");
    assert "archive.tar" + "." + "gz" == "archive.tar.gz";
  }

  lemma ArchiveTarIsNamed()
    ensures NamedStem("archive.tar")
  {
    LastIndexAppend("archive", ".tar", '/');
    assert LastIndex("archive.tar", '/') == -1;
    assert "archive.tar"[0] != '.';
  }
}

=== FILE: registry.dfy ===
/** The location registry: the table of symbolic names (`home`, `desktop`, ...) and the
    directories they stand for, built once from facts about the host, and its filtered
    view of the locations that currently exist. */
module Registry {
  import opened Text
  import opened PosixPath

  /** The names registered on every host. */
  const StandardNames: set<string> := {"home", "desktop", "documents", "downloads", "pictures", "music", "videos"}

  /** The names a OneDrive folder takes over when it is present. */
  const SyncedNames: set<string> := {"desktop", "documents", "pictures"}

  /** True iff the host has a OneDrive folder that the registry honours: only on Windows,
      and only when `<home>/OneDrive` exists. */
  predicate UsesOneDrive(onWindows: bool, oneDriveExists: bool)
  {
    onWindows && oneDriveExists
  }

  /** `get_system_paths`. The host facts it reads (home directory, platform name, whether
      `<home>/OneDrive` exists) are parameters; the OneDrive entries are applied as a
      dictionary update over the standard ones, so they win on shared names. */
  function SystemPaths(home: string, onWindows: bool, oneDriveExists: bool): (paths: map<string, string>)
    ensures paths.Keys == StandardNames + (if UsesOneDrive(onWindows, oneDriveExists) then {"onedrive"} else {})
  {
    var standard := map[
      "home" := home,
      "desktop" := Join2(home, "Desktop"),
      "documents" := Join2(home, "Documents"),
      "downloads" := Join2(home, "Downloads"),
      "pictures" := Join2(home, "Pictures"),
      "music" := Join2(home, "Music"),
      "videos" := Join2(home, "Videos")
    ];
    if UsesOneDrive(onWindows, oneDriveExists) then
      var onedrive := Join2(home, "OneDrive");
      standard + map[
        "onedrive" := onedrive,
        "desktop" := Join2(onedrive, "Desktop"),
        "documents" := Join2(onedrive, "Documents"),
        "pictures" := Join2(onedrive, "Pictures")
      ]
    else
      standard
  }

  lemma StartsWithTrans(a: string, b: string, c: string)
    requires StartsWith(a, b) && StartsWith(b, c)
    ensures StartsWith(a, c)
  {
    assert a[..|c|] == a[..|b|][..|c|];
  }

  /** The OneDrive rule adds the name `onedrive` and no other. */
  lemma OneDriveAddsOnlyItsName(home: string, onWindows: bool, oneDriveExists: bool)
    requires !UsesOneDrive(onWindows, oneDriveExists)
    ensures SystemPaths(home, true, true).Keys == SystemPaths(home, onWindows, oneDriveExists).Keys + {"onedrive"}
    ensures "onedrive" !in SystemPaths(home, onWindows, oneDriveExists)
  {
  }

  /** Names other than the three synced ones keep their home-relative directory when the
      OneDrive rule applies. */
  lemma OneDriveKeepsOthers(home: string, onWindows: bool, oneDriveExists: bool)
    requires !UsesOneDrive(onWindows, oneDriveExists)
    ensures var plain := SystemPaths(home, onWindows, oneDriveExists);
            var synced := SystemPaths(home, true, true);
            forall n :: n in plain && n !in SyncedNames ==> synced[n] == plain[n]
  {
    var plain := SystemPaths(home, onWindows, oneDriveExists);
    var synced := SystemPaths(home, true, true);
    forall n | n in plain && n !in SyncedNames
      ensures synced[n] == plain[n]
    {
      assert n in {"home", "downloads", "music", "videos"};
    }
  }

  /** The folder a synced name stands for, under home or under OneDrive. */
  function SyncedFolder(n: string): string
  {
    if n == "desktop" then "Desktop" else if n == "documents" then "Documents" else "Pictures"
  }

  lemma SyncedEntries(home: string, onWindows: bool, oneDriveExists: bool, n: string)
    requires !UsesOneDrive(onWindows, oneDriveExists)
    requires n in SyncedNames
    ensures SystemPaths(home, true, true)["onedrive"] == Join2(home, "OneDrive")
    ensures SystemPaths(home, true, true)[n] == Join2(Join2(home, "OneDrive"), SyncedFolder(n))
    ensures SystemPaths(home, onWindows, oneDriveExists)[n] == Join2(home, SyncedFolder(n))
  {
    SyncedUnderOneDrive(home, n);
    SyncedUnderHome(home, onWindows, oneDriveExists, n);
  }

  lemma SyncedUnderOneDrive(home: string, n: string)
    requires n in SyncedNames
    ensures SystemPaths(home, true, true)["onedrive"] == Join2(home, "OneDrive")
    ensures SystemPaths(home, true, true)[n] == Join2(Join2(home, "OneDrive"), SyncedFolder(n))
  {
    var od := Join2(home, "OneDrive");
    var overlay := map["onedrive" := od, "desktop" := Join2(od, "Desktop"),
                       "documents" := Join2(od, "Documents"), "pictures" := Join2(od, "Pictures")];
    assert n in overlay && overlay[n] == Join2(od, SyncedFolder(n));
    assert overlay["onedrive"] == od;
  }

  lemma SyncedUnderHome(home: string, onWindows: bool, oneDriveExists: bool, n: string)
    requires !UsesOneDrive(onWindows, oneDriveExists)
    requires n in SyncedNames
    ensures SystemPaths(home, onWindows, oneDriveExists)[n] == Join2(home, SyncedFolder(n))
  {
    if n == "desktop" {
    } else if n == "documents" {
    } else {
      assert n == "pictures";
    }
  }

  /** A folder joined under `<home>/OneDrive` is longer than the same folder joined under
      home, so the two differ. */
  lemma DeeperJoinLonger(home: string, f: string)
    requires f != "" && f[0] != '/'
    ensures |Join2(Join2(home, "OneDrive"), f)| > |Join2(home, f)|
  {
  }

  /** The three synced names move into the OneDrive folder, away from their
      home-relative directory. */
  lemma OneDriveRebindsSynced(home: string, onWindows: bool, oneDriveExists: bool, n: string)
    requires !UsesOneDrive(onWindows, oneDriveExists)
    requires n in SyncedNames
    ensures var plain := SystemPaths(home, onWindows, oneDriveExists);
            var synced := SystemPaths(home, true, true);
            synced[n] != plain[n] && StartsWith(synced[n], synced["onedrive"])
  {
    SyncedEntries(home, onWindows, oneDriveExists, n);
    DeeperJoinLonger(home, SyncedFolder(n));
  }

  /** Every registered name is non-empty, lower-case and free of both separators, so the
      resolver's lower-cased first segment can reach it. */
  lemma SystemPathsNamesCanonical(home: string, onWindows: bool, oneDriveExists: bool)
    ensures forall n :: n in SystemPaths(home, onWindows, oneDriveExists) ==> CanonicalName(n)
  {
    forall n | n in StandardNames + {"onedrive"}
      ensures CanonicalName(n)
    {
      LowerOfLowercase(n);
    }
  }

  /** Every registered directory begins with the home string (a string prefix, built by
      `join(home, ...)`), so an absolute home makes every registered directory absolute. */
  lemma SystemPathsUnderHome(home: string, onWindows: bool, oneDriveExists: bool)
    ensures var paths := SystemPaths(home, onWindows, oneDriveExists);
            forall n :: n in paths ==> StartsWith(paths[n], home) && (IsAbs(home) ==> IsAbs(paths[n]))
  {
    var paths := SystemPaths(home, onWindows, oneDriveExists);
    var od := Join2(home, "OneDrive");
    forall n | n in paths
      ensures StartsWith(paths[n], home)
    {
      if UsesOneDrive(onWindows, oneDriveExists) && n in SyncedNames {
        StartsWithTrans(paths[n], od, home);
      }
    }
  }

  lemma LowerOfLowercase(s: string)
    requires forall i :: 0 <= i < |s| ==> 'a' <= s[i] <= 'z'
    ensures Lower(s) == s
  {
  }

  /** A registry key the resolver can match: non-empty, already lower-case, and without
      `/` or `\`. */
  predicate CanonicalName(n: string)
  {
    n != "" && Lower(n) == n && '/' !in n && '\\' !in n
  }

  /** `get_available_locations`: the registry entries whose directory exists, as decided
      by `present` (the host's `os.path.exists`). */
  function AvailableLocations(registry: map<string, string>, present: string -> bool): (available: map<string, string>)
    ensures available.Keys <= registry.Keys
    ensures forall n :: n in available ==> available[n] == registry[n]
    ensures forall n :: n in registry ==> (n in available <==> present(registry[n]))
  {
    map n | n in registry && present(registry[n]) :: registry[n]
  }

  /** Filtering an already filtered registry changes nothing. */
  lemma AvailableIdempotent(registry: map<string, string>, present: string -> bool)
    ensures AvailableLocations(AvailableLocations(registry, present), present) == AvailableLocations(registry, present)
  {
  }

  /** More existing directories never hide a location. */
  lemma AvailableMonotone(registry: map<string, string>, present: string -> bool, present': string -> bool)
    requires forall s :: present(s) ==> present'(s)
    ensures AvailableLocations(registry, present).Keys <= AvailableLocations(registry, present').Keys
  {
  }
}

=== FILE: resolver.dfy ===
/** The path resolver (`resolve_path`): absolute paths pass through; otherwise backslashes
    become slashes, the first segment is looked up case-insensitively in the registry and,
    on a hit, replaced by its directory; on a miss the original string is made absolute
    against the current directory. POSIX path rules throughout. */
module Resolver {
  import opened Text
  import opened PosixPath

  /** The segments of a path expression once `\` is read as `/`. */
  function Segments(path: string): (parts: seq<string>)
    ensures |parts| >= 1
    ensures SeparatorFree(parts, '/') && SeparatorFree(parts, '\\')
  {
    var parts := Split(ReplaceBackslash(path), '/');
    assert SeparatorFree(parts, '\\') by {
      JoinSplit(ReplaceBackslash(path), '/');
      forall k | 0 <= k < |parts| ensures '\\' !in parts[k] {
        JoinedPieceIn(parts, k);
      }
    }
    parts
  }

  /** Every piece is a substring of the joined string. */
  lemma {:induction false} JoinedPieceIn(parts: seq<string>, k: int)
    requires 0 <= k < |parts|
    ensures forall c :: c in parts[k] ==> c in Join('/', parts)
    decreases |parts|
  {
    if k > 0 {
      JoinedPieceIn(parts[1..], k - 1);
    }
  }

  /** The registry key the first segment is looked up under. */
  function Key(path: string): string
  {
    Lower(Segments(path)[0])
  }

  /** `resolve_path`, with the registry and the current directory as parameters. */
  function Resolve(registry: map<string, string>, cwd: string, path: string): (r: string)
    ensures IsAbs(path) ==> r == path
  {
    if IsAbs(path) then path
    else
      var parts := Segments(path);
      if Key(path) in registry then JoinAll(registry[Key(path)], parts[1..])
      else AbsPath(cwd, path)
  }

  predicate AbsoluteTargets(registry: map<string, string>)
  {
    forall n :: n in registry ==> IsAbs(registry[n])
  }

  /** Resolution never fails, and with an absolute current directory and absolute registered
      directories its result is always an absolute path. */
  lemma ResolveIsAbsolute(registry: map<string, string>, cwd: string, path: string)
    requires IsAbs(cwd) && AbsoluteTargets(registry)
    ensures IsAbs(Resolve(registry, cwd, path))
  {
    if !IsAbs(path) && Key(path) in registry {
      var parts := Segments(path);
      var rest := parts[1..];
      assert NoneAbsolute(rest) by {
        forall k | 0 <= k < |rest| ensures !IsAbs(rest[k]) {
          assert rest[k] == parts[k + 1];
          assert '/' !in parts[k + 1];
        }
      }
      JoinAllKeepsBase(registry[Key(path)], rest);
    }
  }

  lemma ReplaceBackslashIdempotent(s: string)
    ensures ReplaceBackslash(ReplaceBackslash(s)) == ReplaceBackslash(s)
  {
  }

  lemma ReplaceBackslashNone(s: string)
    requires '\\' !in s
    ensures ReplaceBackslash(s) == s
  {
  }

  /** `\` and `/` are interchangeable whenever the first segment names a registered
      location: a path resolves as its slash-only variant does. */
  lemma BackslashInterchangeableOnHit(registry: map<string, string>, cwd: string, path: string)
    requires "" !in registry
    requires !IsAbs(path) && Key(path) in registry
    ensures Resolve(registry, cwd, path) == Resolve(registry, cwd, ReplaceBackslash(path))
  {
    var q := ReplaceBackslash(path);
    ReplaceBackslashIdempotent(path);
    assert Segments(q) == Segments(path);
  }

  /** Two expressions share a registry key exactly when their first segments differ only in
      the case of letters. */
  lemma KeyCaseInsensitive(p: string, q: string)
    ensures Key(p) == Key(q) <==> CaseVariants(Segments(p)[0], Segments(q)[0])
  {
    LowerFoldsCase(Segments(p)[0], Segments(q)[0]);
  }

  /** Two expressions whose first segments agree up to case, and whose remaining segments
      agree exactly, resolve alike when the first segment is a registered name. */
  lemma FirstSegmentCaseInsensitive(registry: map<string, string>, cwd: string, p: string, q: string)
    requires !IsAbs(p) && !IsAbs(q)
    requires CaseVariants(Segments(p)[0], Segments(q)[0]) && Key(p) in registry
    requires Segments(p)[1..] == Segments(q)[1..]
    ensures Resolve(registry, cwd, p) == Resolve(registry, cwd, q)
  {
    KeyCaseInsensitive(p, q);
  }

  /** A name without either separator is a single segment. */
  lemma SegmentsOfName(n: string)
    requires '/' !in n && '\\' !in n
    ensures Segments(n) == [n]
  {
    ReplaceBackslashNone(n);
    SplitAtom(n, '/');
  }

  /** `name/child` is the two segments `name` and `child`. */
  lemma SegmentsOfChild(n: string, s: string)
    requires '/' !in n && '\\' !in n && '/' !in s && '\\' !in s
    ensures Segments(n + "/" + s) == [n, s]
  {
    assert '\\' !in n + "/" + s;
    ReplaceBackslashNone(n + "/" + s);
    assert n + "/" + s == n + ['/'] + s;
    SplitConcat(n, s, '/');
    SplitAtom(n, '/');
    SplitAtom(s, '/');
  }

  /** A bare registered name, in any case, resolves to exactly its registered directory. */
  lemma BareNameResolvesToTarget(registry: map<string, string>, cwd: string, n: string)
    requires n != "" && '/' !in n && '\\' !in n
    requires Lower(n) in registry
    ensures Resolve(registry, cwd, n) == registry[Lower(n)]
  {
    SegmentsOfName(n);
  }

  /** `name/child` resolves to the registered directory joined with `child`, which is
      `directory + "/" + child` for a directory that does not already end in a slash. */
  lemma NamedChildResolves(registry: map<string, string>, cwd: string, n: string, s: string)
    requires n != "" && '/' !in n && '\\' !in n
    requires '/' !in s && '\\' !in s
    requires Lower(n) in registry
    ensures Resolve(registry, cwd, n + "/" + s) == Join2(registry[Lower(n)], s)
    ensures registry[Lower(n)] != "" && !EndsWith(registry[Lower(n)], '/') ==>
              Resolve(registry, cwd, n + "/" + s) == registry[Lower(n)] + "/" + s
  {
    SegmentsOfChild(n, s);
    assert !IsAbs(n + "/" + s);
    assert Key(n + "/" + s) == Lower(n);
    assert [n, s][1..] == [s];
    assert [s][1..] == [];
    assert JoinAll(registry[Lower(n)], [s]) == Join2(registry[Lower(n)], s);
  }

  /** Segments after the first are passed through verbatim: under the same registered name,
      different children resolve to different paths (so `desktop/X` and `desktop/x` differ). */
  lemma LaterSegmentsCaseSensitive(registry: map<string, string>, cwd: string, n: string, s: string, t: string)
    requires n != "" && '/' !in n && '\\' !in n
    requires '/' !in s && '\\' !in s && '/' !in t && '\\' !in t
    requires Lower(n) in registry
    requires s != t
    ensures Resolve(registry, cwd, n + "/" + s) != Resolve(registry, cwd, n + "/" + t)
  {
    NamedChildResolves(registry, cwd, n, s);
    NamedChildResolves(registry, cwd, n, t);
    var a := registry[Lower(n)];
    assert !IsAbs(s) && !IsAbs(t);
    if a == "" || EndsWith(a, '/') {
      assert Join2(a, s) == a + s && Join2(a, t) == a + t;
      assert (a + s)[|a|..] == s && (a + t)[|a|..] == t;
    } else {
      assert Join2(a, s) == a + "/" + s && Join2(a, t) == a + "/" + t;
      assert (a + "/" + s)[|a| + 1..] == s && (a + "/" + t)[|a| + 1..] == t;
    }
  }

  /** The empty expression resolves to the current directory, as `os.getcwd()` reports it
      (already normalised). */
  lemma EmptyResolvesToCwd(registry: map<string, string>, cwd: string)
    requires "" !in registry
    requires IsAbs(cwd) && NormPath(cwd) == cwd
    ensures Resolve(registry, cwd, "") == cwd
  {
    assert Segments("") == [""] by {
      assert ReplaceBackslash("") == "";
    }
    assert Key("") == "";
    assert Resolve(registry, cwd, "") == NormPath(Join2(cwd, ""));
    if !EndsWith(cwd, '/') {
      assert Join2(cwd, "") == cwd + "/";
      NormPathTrailingSlash(cwd);
    } else {
      assert Join2(cwd, "") == cwd + "";
      assert cwd + "" == cwd;
    }
  }

  /** A canonical absolute path not ending in a slash is one or two slashes followed by
      proper names. */
  lemma CanonicalShape(p: string) returns (n: nat, cs: seq<string>)
    requires IsAbs(p) && NormPath(p) == p && !EndsWith(p, '/')
    ensures 1 <= n <= 2 && p == Slashes(n) + Join('/', cs)
    ensures cs != [] && Collapsed(cs, true) && SeparatorFree(cs, '/')
  {
    n := LeadingSlashes(p);
    cs := Collapse(Split(p, '/'), [], n > 0);
    assert p == Slashes(n) + Join('/', cs);
  }

  lemma CollapsedConcat(xs: seq<string>, ys: seq<string>)
    requires Collapsed(xs, true) && SeparatorFree(xs, '/')
    requires Collapsed(ys, true) && SeparatorFree(ys, '/')
    ensures Collapsed(xs + ys, true) && SeparatorFree(xs + ys, '/')
  {
    var all := xs + ys;
    forall k | 0 <= k < |all|
      ensures all[k] != "" && all[k] != "." && all[k] != ".." && '/' !in all[k]
    {
      if k < |xs| { assert all[k] == xs[k]; } else { assert all[k] == ys[k - |xs|]; }
    }
  }

  /** Appending proper names to a canonical absolute path keeps it canonical. */
  lemma AppendNamesCanonical(p: string, cs: seq<string>)
    requires IsAbs(p) && NormPath(p) == p && !EndsWith(p, '/')
    requires cs != [] && Collapsed(cs, true) && SeparatorFree(cs, '/')
    ensures NormPath(p + "/" + Join('/', cs)) == p + "/" + Join('/', cs)
  {
    var n, pcs := CanonicalShape(p);
    JoinAppend(pcs, cs);
    CollapsedConcat(pcs, cs);
    NormPathOfCollapsed(n, pcs + cs);
    Regroup(Slashes(n), Join('/', pcs), Join('/', cs), Join('/', pcs + cs), p);
  }

  /** Re-bracketing the pieces of a path string. Kept apart from `AppendNamesCanonical`,
      where `NormPath` unfolds, because the solver finds the step costly there. */
  lemma Regroup(lead: string, front: string, back: string, joined: string, p: string)
    requires joined == front + "/" + back && p == lead + front
    ensures lead + joined == p + "/" + back
  {
  }

  /** On a miss the ORIGINAL expression is made absolute, so under POSIX rules a backslash
      stays inside a file name: with a canonical current directory, a relative path of plain
      names `cs` resolves to `cwd + "/" + '/'.join(cs)`. */
  lemma MissResolvesUnderCwd(registry: map<string, string>, cwd: string, cs: seq<string>)
    requires IsAbs(cwd) && NormPath(cwd) == cwd && !EndsWith(cwd, '/')
    requires cs != [] && Collapsed(cs, true) && SeparatorFree(cs, '/')
    requires Key(Join('/', cs)) !in registry
    ensures Resolve(registry, cwd, Join('/', cs)) == cwd + "/" + Join('/', cs)
  {
    var s := Join('/', cs);
    JoinNoLeadingSlash(cs);
    JoinedLength(cs);
    assert !IsAbs(s);
    assert Join2(cwd, s) == cwd + "/" + s;
    AppendNamesCanonical(cwd, cs);
  }

  lemma {:induction false} JoinedLength(cs: seq<string>)
    requires cs != []
    ensures |Join('/', cs)| >= |cs[0]|
    decreases |cs|
  {
  }

  lemma {:induction false} JoinAppend(xs: seq<string>, ys: seq<string>)
    requires xs != [] && ys != []
    ensures Join('/', xs + ys) == Join('/', xs) + "/" + Join('/', ys)
    decreases |xs|
  {
    if |xs| == 1 {
      assert (xs + ys)[1..] == ys;
    } else {
      assert (xs + ys)[1..] == xs[1..] + ys;
      JoinAppend(xs[1..], ys);
    }
  }

  /** With no other backslash around, reading the one between two names as `/` gives the
      slash-separated path. */
  lemma BackslashAsSlash(x: string, y: string)
    requires '\\' !in x && '\\' !in y
    ensures ReplaceBackslash(x + "\\" + y) == x + "/" + y
  {
    var s := x + "\\" + y;
    var t := x + "/" + y;
    forall i | 0 <= i < |s|
      ensures ReplaceBackslash(s)[i] == t[i]
    {
      if i < |x| {
        assert s[i] == x[i] && t[i] == x[i];
      } else if i > |x| {
        assert s[i] == y[i - |x| - 1] && t[i] == y[i - |x| - 1];
      }
    }
  }

  /** A name that can stand as a single path component: not empty, not `.` or `..`, and
      without either separator. */
  predicate PlainName(n: string)
  {
    n != "" && n != "." && n != ".." && '/' !in n && '\\' !in n
  }

  /** On a miss the original string is made absolute, so under POSIX rules `x\y` names one
      entry `x\y` of the current directory, while `x/y` names `y` inside `x`: the two
      spellings, interchangeable on a hit, resolve differently. */
  lemma BackslashDiffersOnMiss(registry: map<string, string>, cwd: string, x: string, y: string)
    requires IsAbs(cwd) && NormPath(cwd) == cwd && !EndsWith(cwd, '/')
    requires PlainName(x) && PlainName(y) && Lower(x) !in registry
    ensures Resolve(registry, cwd, x + "\\" + y) == cwd + "/" + x + "\\" + y
    ensures Resolve(registry, cwd, x + "/" + y) == cwd + "/" + x + "/" + y
    ensures Resolve(registry, cwd, x + "\\" + y) != Resolve(registry, cwd, x + "/" + y)
  {
    BackslashMiss(registry, cwd, x, y);
    SlashMiss(registry, cwd, x, y);
    var i := |cwd| + 1 + |x|;
    assert (cwd + "/" + x + "\\" + y)[i] == '\\';
    assert (cwd + "/" + x + "/" + y)[i] == '/';
  }

  lemma BackslashMiss(registry: map<string, string>, cwd: string, x: string, y: string)
    requires IsAbs(cwd) && NormPath(cwd) == cwd && !EndsWith(cwd, '/')
    requires PlainName(x) && PlainName(y) && Lower(x) !in registry
    ensures Resolve(registry, cwd, x + "\\" + y) == cwd + "/" + x + "\\" + y
  {
    var s := x + "\\" + y;
    BackslashPieces(x, y);
    MissResolvesUnderCwd(registry, cwd, [s]);
    assert cwd + "/" + s == cwd + "/" + x + "\\" + y;
  }

  /** `x\y` is a single component whose registry key is that of `x`. */
  lemma BackslashPieces(x: string, y: string)
    requires PlainName(x) && PlainName(y)
    ensures var s := x + "\\" + y;
            Join('/', [s]) == s && Collapsed([s], true) && SeparatorFree([s], '/') && Key(s) == Lower(x)
  {
    var s := x + "\\" + y;
    assert '/' !in s && |s| >= 3;
    BackslashAsSlash(x, y);
    assert '\\' !in x + "/" + y;
    ReplaceBackslashNone(x + "/" + y);
    SegmentsOfChild(x, y);
    assert Segments(s) == Segments(x + "/" + y);
  }

  lemma SlashMiss(registry: map<string, string>, cwd: string, x: string, y: string)
    requires IsAbs(cwd) && NormPath(cwd) == cwd && !EndsWith(cwd, '/')
    requires PlainName(x) && PlainName(y) && Lower(x) !in registry
    ensures Resolve(registry, cwd, x + "/" + y) == cwd + "/" + x + "/" + y
  {
    SlashPieces(x, y);
    MissResolvesUnderCwd(registry, cwd, [x, y]);
    assert cwd + "/" + (x + "/" + y) == cwd + "/" + x + "/" + y;
  }

  /** `x/y` is the two components `x` and `y`, with the registry key of `x`. */
  lemma SlashPieces(x: string, y: string)
    requires PlainName(x) && PlainName(y)
    ensures Join('/', [x, y]) == x + "/" + y && Collapsed([x, y], true) && SeparatorFree([x, y], '/')
    ensures Key(x + "/" + y) == Lower(x)
  {
    assert Join('/', [x, y][1..]) == y;
    SegmentsOfChild(x, y);
  }
}

=== FILE: text.dfy ===
/** String helpers with Python's semantics: `str.split`, `str.join`, `str.replace`,
    `str.rfind` and an ASCII-only `str.lower`. Strings are sequences of characters. */
module Text {

  /** `s.split(sep)`: never empty, and the pieces between separators are kept even
      when they are empty (`"a//b"` splits into `["a", "", "b"]`). */
  function Split(s: string, sep: char): (parts: seq<string>)
    ensures |parts| >= 1
    ensures forall k :: 0 <= k < |parts| ==> sep !in parts[k]
    decreases |s|
  {
    if s == [] then [""]
    else
      var rest := Split(s[1..], sep);
      if s[0] == sep then [""] + rest
      else [[s[0]] + rest[0]] + rest[1..]
  }

  /** `sep.join(parts)`. */
  function Join(sep: char, parts: seq<string>): string
    decreases |parts|
  {
    if |parts| == 0 then ""
    else if |parts| == 1 then parts[0]
    else parts[0] + [sep] + Join(sep, parts[1..])
  }

  /** True iff no piece contains the separator, as is the case for every result of `Split`. */
  predicate SeparatorFree(parts: seq<string>, sep: char)
  {
    forall k :: 0 <= k < |parts| ==> sep !in parts[k]
  }

  /** A string without the separator splits into itself. */
  lemma {:induction false} SplitAtom(s: string, sep: char)
    requires sep !in s
    ensures Split(s, sep) == [s]
    decreases |s|
  {
    if s != [] {
      assert sep !in s[1..];
      SplitAtom(s[1..], sep);
      assert [s[0]] + s[1..] == s;
    }
  }

  /** One step of `Split`: a leading separator starts a new piece, any other character
      joins the first piece. */
  lemma SplitCons(c: char, rest: string, sep: char)
    ensures var tail := Split(rest, sep);
            Split([c] + rest, sep) == if c == sep then [""] + tail else [[c] + tail[0]] + tail[1..]
  {
    assert ([c] + rest)[0] == c && ([c] + rest)[1..] == rest;
  }

  /** Splitting distributes over a separator that joins two strings. */
  lemma {:induction false} SplitConcat(x: string, y: string, sep: char)
    ensures Split(x + [sep] + y, sep) == Split(x, sep) + Split(y, sep)
    decreases |x|
  {
    if x == [] {
      assert x + [sep] + y == [sep] + y;
      SplitCons(sep, y, sep);
    } else {
      var c, xs := x[0], x[1..];
      SplitConcat(xs, y, sep);
      SplitCons(c, xs + [sep] + y, sep);
      SplitCons(c, xs, sep);
      SplitGlue(c == sep, c, Split(xs, sep), Split(y, sep),
                Split([c] + (xs + [sep] + y), sep), Split([c] + xs, sep));
      assert x == [c] + xs;
      assert x + [sep] + y == [c] + (xs + [sep] + y);
    }
  }

  /** The step of `SplitConcat` on the pieces alone: whether the first character starts a
      new piece or joins the first one, appending more pieces commutes with it. */
  lemma SplitGlue(isSep: bool, c: char, a: seq<string>, b: seq<string>, whole: seq<string>, front: seq<string>)
    requires a != []
    requires whole == if isSep then [""] + (a + b) else [[c] + (a + b)[0]] + (a + b)[1..]
    requires front == if isSep then [""] + a else [[c] + a[0]] + a[1..]
    ensures whole == front + b
  {
    if !isSep {
      assert (a + b)[0] == a[0] && (a + b)[1..] == a[1..] + b;
    }
  }

  /** `sep.join(s.split(sep)) == s`. */
  lemma {:induction false} JoinSplit(s: string, sep: char)
    ensures Join(sep, Split(s, sep)) == s
    decreases |s|
  {
    if s != [] {
      JoinSplit(s[1..], sep);
      var rest := Split(s[1..], sep);
      if s[0] == sep {
        assert Join(sep, [""] + rest) == "" + [sep] + Join(sep, ([""] + rest)[1..]);
        assert ([""] + rest)[1..] == rest;
        assert [sep] + s[1..] == s;
      } else {
        var parts := [[s[0]] + rest[0]] + rest[1..];
        if |rest| == 1 {
          assert Join(sep, parts) == [s[0]] + rest[0];
        } else {
          assert parts[1..] == rest[1..];
          assert Join(sep, rest) == rest[0] + [sep] + Join(sep, rest[1..]);
          assert Join(sep, parts) == [s[0]] + rest[0] + [sep] + Join(sep, rest[1..]);
        }
        assert [s[0]] + s[1..] == s;
      }
    }
  }

  /** `sep.join(parts).split(sep) == parts` when no piece contains the separator. */
  lemma {:induction false} SplitJoin(parts: seq<string>, sep: char)
    requires |parts| >= 1 && SeparatorFree(parts, sep)
    ensures Split(Join(sep, parts), sep) == parts
    decreases |parts|
  {
    SplitAtom(parts[0], sep);
    if |parts| > 1 {
      SplitJoin(parts[1..], sep);
      SplitConcat(parts[0], Join(sep, parts[1..]), sep);
      assert [parts[0]] + parts[1..] == parts;
    }
  }

  /** `s.replace("\\", "/")`. */
  function ReplaceBackslash(s: string): (r: string)
    ensures |r| == |s|
    ensures '\\' !in r
  {
    seq(|s|, i requires 0 <= i < |s| => if s[i] == '\\' then '/' else s[i])
  }

  /** Replacing every backslash by a slash is splitting at backslashes and joining the
      pieces with slashes: each other character is kept, in place. */
  lemma {:induction false} ReplaceBackslashIsSplitJoin(s: string)
    ensures ReplaceBackslash(s) == Join('/', Split(s, '\\'))
    decreases |s|
  {
    if s != [] {
      var c, t := s[0], s[1..];
      ReplaceBackslashIsSplitJoin(t);
      var rest := Split(t, '\\');
      assert ReplaceBackslash(s) == [if c == '\\' then '/' else c] + ReplaceBackslash(t);
      if c == '\\' {
        assert ([""] + rest)[1..] == rest;
      } else {
        JoinFirstGrows(c, rest, '/');
      }
    }
  }

  /** Lengthening the first piece lengthens the joined string at its front. */
  lemma JoinFirstGrows(c: char, rest: seq<string>, sep: char)
    requires |rest| >= 1
    ensures Join(sep, [[c] + rest[0]] + rest[1..]) == [c] + Join(sep, rest)
  {
    var parts := [[c] + rest[0]] + rest[1..];
    if |rest| > 1 {
      assert parts[1..] == rest[1..];
    }
  }

  /** ASCII lower-casing of one character. */
  function LowerChar(c: char): char
  {
    if 'A' <= c <= 'Z' then (c as int + 32) as char else c
  }

  /** Two characters that are equal, or are the upper- and lower-case forms of one ASCII
      letter. */
  predicate SameUpToCase(a: char, b: char)
  {
    || a == b
    || ('A' <= a <= 'Z' && b as int == a as int + 32)
    || ('A' <= b <= 'Z' && a as int == b as int + 32)
  }

  /** Two strings that differ at most in the case of their ASCII letters. */
  predicate CaseVariants(s: string, t: string)
  {
    |s| == |t| && forall i :: 0 <= i < |s| ==> SameUpToCase(s[i], t[i])
  }

  predicate HasUpper(s: string)
  {
    exists i :: 0 <= i < |s| && 'A' <= s[i] <= 'Z'
  }

  /** `s.lower()`, restricted to ASCII letters: the case variant of `s` without capitals. */
  function Lower(s: string): (r: string)
    ensures |r| == |s|
    ensures CaseVariants(s, r) && !HasUpper(r)
  {
    seq(|s|, i requires 0 <= i < |s| => LowerChar(s[i]))
  }

  /** Two strings lower-case alike exactly when they differ only in the case of letters. */
  lemma LowerFoldsCase(s: string, t: string)
    ensures Lower(s) == Lower(t) <==> CaseVariants(s, t)
  {
    if CaseVariants(s, t) {
      forall i | 0 <= i < |s|
        ensures Lower(s)[i] == Lower(t)[i]
      {
        assert SameUpToCase(s[i], t[i]);
      }
    }
    if Lower(s) == Lower(t) {
      forall i | 0 <= i < |s|
        ensures SameUpToCase(s[i], t[i])
      {
        assert Lower(s)[i] == Lower(t)[i];
      }
    }
  }

  /** `Desktop` and `desktop` are case variants that both fold to `desktop`. */
  lemma LowerDesktop()
    ensures CaseVariants("Desktop", "desktop")
    ensures Lower("Desktop") == "desktop" && Lower("desktop") == "desktop"
    ensures "Desktop" + "/" == "Desktop/" && "desktop" + "/" == "desktop/"
  {
    assert Lower("Desktop") == "desktop";
    LowerFoldsCase("Desktop", "desktop");
  }

  /** A second lower-casing changes nothing. */
  lemma LowerIsLower(s: string)
    ensures Lower(Lower(s)) == Lower(s)
  {
  }

  /** `s.rfind(c)`: the index of the last occurrence of `c`, or -1. */
  function LastIndex(s: string, c: char): (r: int)
    ensures -1 <= r < |s|
    ensures r >= 0 ==> s[r] == c
    ensures forall j :: r < j < |s| ==> s[j] != c
    decreases |s|
  {
    if s == [] then -1
    else if s[|s| - 1] == c then |s| - 1
    else LastIndex(s[..|s| - 1], c)
  }

  predicate StartsWith(s: string, prefix: string)
  {
    |prefix| <= |s| && s[..|prefix|] == prefix
  }

  predicate EndsWith(s: string, c: char)
  {
    |s| > 0 && s[|s| - 1] == c
  }
}

=== FILE: tools.dfy ===
/** The tools the server exposes, as the composition of `resolve_path` with one
    filesystem step each: `create_folder`, `delete_file`, `list_files`,
    `organize_files_by_extension` and `get_available_locations`. A host supplies the
    registry and the current directory; a resolved path, read from the current directory
    when it is relative, names the entry whose components it lists once normalised. */
module Tools {
  import opened Outcomes
  import opened Text
  import opened PosixPath
  import opened Registry
  import opened Resolver
  import opened FileSystem
  import Organize

  /** What the server reads from its host: the registry and the current directory. */
  datatype Host = Host(registry: map<string, string>, cwd: string)

  /** The entry a path string names: its components, normalised lexically as from the root. */
  function Locate(s: string): (p: Path)
    ensures SeparatorFree(p, '/') && Collapsed(p, true)
  {
    Collapse(Split(s, '/'), [], true)
  }

  /** Appending `/name` to a path string appends `name` to the entry it names. */
  lemma LocateChild(a: string, s: string)
    requires PlainName(s)
    ensures Locate(a + "/" + s) == Locate(a) + [s]
  {
    assert a + "/" + s == a + ['/'] + s;
    SplitConcat(a, s, '/');
    SplitAtom(s, '/');
    CollapseAppend(Split(a, '/'), [s], [], true);
    assert [s][1..] == [];
  }

  /** `posixpath.join(a, name)` names the child `name` of what `a` names. */
  lemma LocateJoin2(a: string, s: string)
    requires PlainName(s)
    ensures Locate(Join2(a, s)) == Locate(a) + [s]
  {
    assert !IsAbs(s);
    if a == "" {
      SplitAtom(s, '/');
      SplitAtom("", '/');
      assert [s][1..] == [] && [""][1..] == [];
      assert CollapseStep([], s, true) == [s];
      assert Collapse([s], [], true) == Collapse([], [s], true);
    } else if EndsWith(a, '/') {
      var a' := a[..|a| - 1];
      assert a == a' + ['/'] + "";
      assert Join2(a, s) == a' + "/" + s;
      LocateChild(a', s);
      SplitConcat(a', "", '/');
      SplitAtom("", '/');
      CollapseAppendEmpty(Split(a', '/'), [], true);
      assert Locate(a) == Locate(a');
    } else {
      LocateChild(a, s);
    }
  }

  /** The string the kernel looks up: a relative string is taken from the process's
      current directory, the one `abspath` consults as well. */
  function Anchored(cwd: string, s: string): (a: string)
    ensures IsAbs(s) ==> a == s
    ensures !IsAbs(s) ==> StartsWith(a, cwd) && EndsWith(a, '/') == (s == "" || EndsWith(s, '/'))
  {
    if IsAbs(s) then s else cwd + "/" + s
  }

  /** Joining a relative name commutes with anchoring. */
  lemma AnchoredJoin2(cwd: string, a: string, s: string)
    requires !IsAbs(s)
    ensures Anchored(cwd, Join2(a, s)) == Join2(Anchored(cwd, a), s)
  {
    if !IsAbs(a) {
      if a == "" {
        assert Join2(a, s) == s;
        assert EndsWith(cwd + "/", '/');
      } else {
        assert (cwd + "/" + a)[|cwd| + 1..] == a;
        assert EndsWith(cwd + "/" + a, '/') == EndsWith(a, '/');
        assert Join2(a, s)[0] == a[0];
      }
    }
  }

  /** The entry a tool argument refers to, after `resolve_path`. */
  function Where(h: Host, path: string): Path
  {
    Locate(Anchored(h.cwd, Resolve(h.registry, h.cwd, path)))
  }

  /** True iff the last component of `s`, ignoring trailing slashes, is `.` or `..`. The
      kernel's `rmdir` refuses such a path (`.`), or no longer finds it once its contents
      are gone (`..`). */
  predicate EndsInDots(s: string)
    decreases |s|
  {
    if s != [] && s[|s| - 1] == '/' then EndsInDots(s[..|s| - 1])
    else
      var pieces := Split(s, '/');
      pieces[|pieces| - 1] == "." || pieces[|pieces| - 1] == ".."
  }

  /** A registered directory given as a relative string (a home directory such as `~` that
      `expanduser` could not expand) is looked up from the current directory. */
  lemma RelativeTargetFromCwd(h: Host, n: string)
    requires CanonicalName(n) && n in h.registry && !IsAbs(h.registry[n])
    ensures Where(h, n) == Locate(h.cwd + "/" + h.registry[n])
  {
    BareNameResolvesToTarget(h.registry, h.cwd, n);
  }

  /** `name/child` for a registered name refers to the child of the named directory. */
  lemma ChildOfShortcut(h: Host, n: string, s: string)
    requires CanonicalName(n) && n in h.registry && PlainName(s)
    ensures Where(h, n + "/" + s) == Where(h, n) + [s]
  {
    NamedChildResolves(h.registry, h.cwd, n, s);
    BareNameResolvesToTarget(h.registry, h.cwd, n);
    AnchoredJoin2(h.cwd, h.registry[n], s);
    LocateJoin2(Anchored(h.cwd, h.registry[n]), s);
  }

  /** `create_folder`: succeeds unless a file lies on the way, and then the resolved
      path is a directory. */
  function CreateFolder(h: Host, fs: FS, path: string): (r: Outcome<FS>)
    requires WellFormed(fs)
    ensures r.Ok? <==> NoFileOnPath(fs, Where(h, path))
    ensures r.Ok? ==> WellFormed(r.value) && IsDir(r.value, Where(h, path))
  {
    MakeDirs(fs, Where(h, path))
  }

  /** `delete_file`: removes the resolved entry and everything below it; fails when
      nothing is there, at the root, and when the resolved string ends in `.` or `..`. */
  function DeleteFile(h: Host, fs: FS, path: string): (r: Outcome<FS>)
    requires WellFormed(fs)
    ensures r.Ok? <==> !EndsInDots(Resolve(h.registry, h.cwd, path)) && Where(h, path) in fs && Where(h, path) != []
    ensures r.Ok? ==> WellFormed(r.value) && Where(h, path) !in r.value
  {
    if EndsInDots(Resolve(h.registry, h.cwd, path)) then Err else Delete(fs, Where(h, path))
  }

  /** The last piece of `a/t` is `t`. */
  lemma LastPiece(a: string, t: string)
    requires '/' !in t
    ensures var pieces := Split(a + "/" + t, '/');
            pieces[|pieces| - 1] == t
  {
    assert a + "/" + t == a + ['/'] + t;
    SplitConcat(a, t, '/');
    SplitAtom(t, '/');
  }

  /** `delete_file("name/.")` for a registered name fails, even though it names the
      registered directory itself. */
  lemma DeleteDotFails(h: Host, fs: FS, n: string)
    requires WellFormed(fs) && CanonicalName(n) && n in h.registry
    ensures DeleteFile(h, fs, n + "/.") == Err
  {
    assert n + "/" + "." == n + "/.";
    NamedChildResolves(h.registry, h.cwd, n, ".");
    JoinDotEndsInDots(h.registry[n]);
  }

  /** `join(dir, ".")` ends in `.`. */
  lemma JoinDotEndsInDots(dir: string)
    ensures EndsInDots(Join2(dir, "."))
  {
    var r := Join2(dir, ".");
    if dir == "" {
      assert r == ".";
      SplitAtom(".", '/');
    } else if EndsWith(dir, '/') {
      var d' := dir[..|dir| - 1];
      assert r == d' + "/" + ".";
      LastPiece(d', ".");
    } else {
      assert r == dir + "/" + ".";
      LastPiece(dir, ".");
    }
  }

  /** `list_files`: the header names the resolved path, then one line per entry. */
  method ListFiles(h: Host, fs: FS, path: string) returns (r: Outcome<seq<string>>)
    ensures r.Ok? <==> IsDir(fs, Where(h, path))
    ensures r.Ok? ==> |r.value| == |Children(fs, Where(h, path))| + 1
    ensures r.Ok? ==> r.value[0] == "Contents of " + Resolve(h.registry, h.cwd, path) + ":"
    ensures r.Ok? ==> forall c :: c in Children(fs, Where(h, path)) ==>
                        Entry(fs, Where(h, path), c) in r.value[1..]
    ensures r.Ok? ==> forall k :: 1 <= k < |r.value| ==> ChildLine(fs, Where(h, path), r.value[k])
    ensures r.Ok? ==> Distinct(r.value[1..])
  {
    r := ListDir(fs, Resolve(h.registry, h.cwd, path), Where(h, path));
  }

  /** `organize_files_by_extension` on the resolved directory. */
  function OrganizeByExtension(h: Host, fs: FS, path: string, listing: seq<string>): (r: Organize.Progress)
    requires WellFormed(fs)
    requires IsDir(fs, Where(h, path)) ==> Organize.IsListing(fs, Where(h, path), listing)
    ensures !IsDir(fs, Where(h, path)) ==> r == Organize.Progress(fs, false)
    ensures WellFormed(r.fs)
  {
    Organize.Organize(fs, Where(h, path), listing)
  }

  /** `get_available_locations`: the registered names whose directory exists. */
  function AvailableShortcuts(h: Host, fs: FS): (r: map<string, string>)
    ensures forall n :: n in r ==> n in h.registry && r[n] == h.registry[n] && Locate(Anchored(h.cwd, r[n])) in fs
    ensures forall n :: n in h.registry && Locate(Anchored(h.cwd, h.registry[n])) in fs ==> n in r
  {
    AvailableLocations(h.registry, s => Locate(Anchored(h.cwd, s)) in fs)
  }

  /** Every location `get_available_locations` reports works as a shortcut: the bare name
      resolves to the reported directory, which exists. */
  lemma ShortcutsExist(h: Host, fs: FS)
    requires forall n :: n in h.registry ==> CanonicalName(n)
    ensures forall n :: n in AvailableShortcuts(h, fs) ==>
              Resolve(h.registry, h.cwd, n) == AvailableShortcuts(h, fs)[n] && Where(h, n) in fs
  {
    forall n | n in AvailableShortcuts(h, fs)
      ensures Resolve(h.registry, h.cwd, n) == h.registry[n]
    {
      BareNameResolvesToTarget(h.registry, h.cwd, n);
    }
  }

  /** The same holds for the registry `get_system_paths` builds, for every home directory,
      platform and current directory. */
  lemma SystemShortcutsExist(home: string, onWindows: bool, oneDriveExists: bool, cwd: string, fs: FS)
    ensures var h := Host(SystemPaths(home, onWindows, oneDriveExists), cwd);
            forall n :: n in AvailableShortcuts(h, fs) ==>
              Resolve(h.registry, h.cwd, n) == AvailableShortcuts(h, fs)[n] && Where(h, n) in fs
  {
    SystemPathsNamesCanonical(home, onWindows, oneDriveExists);
    ShortcutsExist(Host(SystemPaths(home, onWindows, oneDriveExists), cwd), fs);
  }

  /** A folder made with `create_folder("name/child")` shows up in `list_files("name")`
      as `child (folder)`. */
  lemma CreatedFolderIsListed(h: Host, fs: FS, n: string, s: string)
    requires WellFormed(fs)
    requires CanonicalName(n) && n in h.registry && PlainName(s)
    requires CreateFolder(h, fs, n + "/" + s).Ok?
    ensures var after := CreateFolder(h, fs, n + "/" + s).value;
            s in Children(after, Where(h, n)) && Entry(after, Where(h, n), s) == s + " (folder)"
  {
    ChildOfShortcut(h, n, s);
    var p := Where(h, n) + [s];
    assert Parent(p) == Where(h, n) && Last(p) == s;
    MadeFolderIsListed(fs, p);
  }

  /** `delete_file` on the path just given to `create_folder` undoes it, when the folder
      is new, its parent exists, and the resolved string does not end in `.` or `..`. */
  lemma DeleteUndoesCreate(h: Host, fs: FS, path: string)
    requires WellFormed(fs) && !EndsInDots(Resolve(h.registry, h.cwd, path))
    requires Where(h, path) != [] && Where(h, path) !in fs && IsDir(fs, Parent(Where(h, path)))
    ensures CreateFolder(h, fs, path).Ok?
    ensures DeleteFile(h, CreateFolder(h, fs, path).value, path) == Ok(fs)
  {
    DeleteUndoesMakeDirs(fs, Where(h, path));
  }

  /** The first segment is matched without regard to case at the tool level too:
      `Desktop/x` and `desktop/x` make the same folder. */
  lemma CreateFolderCaseInsensitive(h: Host, fs: FS, n: string, m: string, s: string)
    requires WellFormed(fs)
    requires n != "" && '/' !in n && '\\' !in n && m != "" && '/' !in m && '\\' !in m
    requires CaseVariants(n, m) && Lower(n) in h.registry
    requires '/' !in s && '\\' !in s
    ensures CreateFolder(h, fs, n + "/" + s) == CreateFolder(h, fs, m + "/" + s)
  {
    LowerFoldsCase(n, m);
    NamedChildResolves(h.registry, h.cwd, n, s);
    NamedChildResolves(h.registry, h.cwd, m, s);
  }

  /** With `desktop` registered, `Desktop/s` creates what `desktop/s` creates. */
  lemma CreateFolderDesktop(h: Host, fs: FS, s: string)
    requires WellFormed(fs) && "desktop" in h.registry
    requires '/' !in s && '\\' !in s
    ensures CreateFolder(h, fs, "Desktop/" + s) == CreateFolder(h, fs, "desktop/" + s)
  {
    LowerDesktop();
    CreateFolderCaseInsensitive(h, fs, "Desktop", "desktop", s);
    assert "Desktop" + "/" + s == "Desktop/" + s;
    assert "desktop" + "/" + s == "desktop/" + s;
  }
}
